=== FILE: README.md ===
# Chipmunk2D demo shell: draw topology, message buffer and harness state

This project models the discrete core of the Chipmunk2D demo application:
the debug-draw layer (`demo/ChipmunkDebugDraw.c`) and the demo harness
(`demo/ChipmunkDemo.c`). The physics engine, the GPU and the window system
are outside the model. It consists of six modules:

- `Photon` (`photon.dfy`) covers what the draw routines assume about the
  Photon renderer. `PhotonRendererEnqueueTriangles` reserves a batch and
  hands back its `batchOffset`. Index tables are copied with that offset
  added. An emission is a declared triangle count, a declared vertex count,
  the pushed vertexes and a flat index buffer.
- `DebugDraw` (`debug_draw.dfy`) holds the primitive topology:
  - the fixed quad tables of circles, glyphs and the shadow-apply pass;
  - the eight-vertex, six-triangle segment strip;
  - the triangle fan of `ChipmunkDebugDrawPolygon`;
  - the box of `ChipmunkDebugDrawBB`;
  - the closed ring of shadow quads of `ChipmunkDebugDrawShadow`, with a
    batch offset that advances by four per edge.
- `CString` (`cstring.dfy`) holds the byte type both C-string users
  share, and `strlen`. Lengths everywhere are counted in bytes.
- `Text` (`text.dfy`) holds the char-to-glyph table that
  `ChipmunkDebugDrawInit` fills from the SDF font's spacing table. It also
  holds the pen walk of `ChipmunkDebugDrawText`: one glyph per non-newline
  byte, and a newline returns to the start column one line lower.
- `MessageBuffer` (`message_buffer.dfy`) holds `ChipmunkDemoPrintString`.
  A cursor points into a fixed 8 KiB buffer. It has a success path, a
  failure path that latches the cursor to NULL, and the rewind that `Tick`
  performs. `vsnprintf` is represented by the text it would produce, or by
  an encoding error.
- `Harness` (`harness.dfy`) holds the harness globals as one immutable
  record. Its transitions are:
  - `RunDemo`, `Keyboard`, and the program start;
  - `Tick`, gated on pause and single-step;
  - the fixed-timestep accumulator of `Update`, with times as reals;
  - the running maxima of `DrawInfo`;
  - the vertex reversal that `DrawShadows` applies to polygons before it
    draws their shadows.

Where a comment in the source and its code disagree, the model follows the
code. The two cases where that matters are listed under Findings, each with
an as-written member and a corrected member:

- `ChipmunkDemoPrintString`. `Tick` prints through the as-written print, as
  the program does. The corrected print is proved alongside it, and the two
  agree on every tick that prints no empty string.
- The signed `char` passed to `PushChar`. As written, a byte from 0x80 up
  indexes the glyph table out of bounds, which is undefined behaviour and
  has no result to model. The text layout therefore reads every byte as
  `unsigned char`, the corrected reading.

## Model

| member | source | states |
|---|---|---|
| DebugDraw.DrawCircle | demo/ChipmunkDebugDraw.c:331-342 | A circle reserves 2 triangles over 4 vertexes and writes 6 indexes, all inside its own batch. Both triangles are proper and wound the same way, and together they touch all four corners. |
| DebugDraw.DrawGlyphQuad | demo/ChipmunkDebugDraw.c:506-511 | A glyph quad reserves 2 triangles over 4 vertexes with all 6 indexes inside the batch. Its two triangles are non-degenerate, wound alike and cover all four corners. |
| DebugDraw.DrawApplyShadows | demo/ChipmunkDebugDraw.c:602-613 | The full-screen shadow-apply pass reserves 2 triangles over 4 vertexes with all indexes inside the batch. Both triangles are wound alike and cover all four clip-space corners. |
| DebugDraw.DrawSegment | demo/ChipmunkDebugDraw.c:359-375 | A segment reserves 6 triangles over 8 vertexes and writes 18 indexes, every one inside its batch. |
| DebugDraw.SegmentCorners | demo/ChipmunkDebugDraw.c:362-373 | For a segment of positive length, the eight vertexes come in four pairs, one vertex of each pair on either side of the segment. The pairs stand one radius beyond `b`, at `b`, at `a`, and one radius beyond `a`, in that order. A segment of length zero has no direction, so all eight vertexes fall on `a`. |
| DebugDraw.SegmentStripTiles | demo/ChipmunkDebugDraw.c:365-374 | The six segment triangles form a strip: each shares an edge with the next, and none is degenerate. Their unsigned areas add up to exactly the area of the capsule's bounding rectangle. |
| DebugDraw.DrawPolygon | demo/ChipmunkDebugDraw.c:392-407 | A polygon of `count` vertexes declares `count - 2` triangles over `count` vertexes and pushes the vertexes in order. Triangle `i` is `(0, i+1, i+2)` plus the batch offset, and every index lies in `[offset, offset + count)`. From two vertexes on, the emission fills exactly what it reserved. |
| DebugDraw.FanCoversPolygon | demo/ChipmunkDebugDraw.c:404-406 | For at least three vertexes, every fan triangle is proper and contains vertex 0, and consecutive triangles share an edge. Every polygon vertex is a corner of some triangle. |
| DebugDraw.DrawBB | demo/ChipmunkDebugDraw.c:473-483 | A box is drawn as the 4-vertex polygon `(r,b), (r,t), (l,t), (l,b)`, which gives 2 triangles `(0,1,2)` and `(0,2,3)`. For a proper box both triangles are counter-clockwise. |
| DebugDraw.DrawShadow | demo/ChipmunkDebugDraw.c:578-600 | `count` occluder vertexes give 4·count vertexes and 2·count triangles. The quad of edge `k` is the pattern 0,1,2,2,3,0 shifted by `offset + 4k` and uses only vertexes `offset+4k .. offset+4k+3`. Its four vertexes carry the edge from transformed vertex `k-1` (the last one for `k = 0`) to transformed vertex `k`. The far end of quad `k`'s edge is the near end of the next quad's edge, the last quad handing on to the first. |
| DebugDraw.ShadowEdgesFormRing | demo/ChipmunkDebugDraw.c:587-597 | Whenever every quad carries its occluder edge, the quads form one closed ring. Every vertex of quad `k` has as its far end the near end of every vertex of quad `k+1`, and the last quad hands on to the first. |
| Text.LastGlyph | demo/ChipmunkDebugDraw.c:52 | After the first `n` glyphs have been entered, the table entry for code `c` is the last of them whose code is `c`. If none has that code, it is the zero of the static initialisation. |
| Text.FillGlyphIndexes | demo/ChipmunkDebugDraw.c:309-313 | The init loop leaves a 256-entry table. Each entry is the last glyph carrying that code, or 0 when no glyph does. Every code present in the font maps back to a glyph with that code. |
| Text.CharArgumentAsWritten | demo/ChipmunkDebugDraw.c:528 | As written, the `int` that `PushChar` receives for a byte is the `char` in `[-128, 128)` congruent to the byte modulo 256. It equals the byte exactly for ASCII. |
| Text.SignedCharIndexesOutsideTable | demo/ChipmunkDebugDraw.c:528 | As written, a byte from 0x80 up reaches `PushChar` as a negative `int` and indexes `glyph_indexes` out of bounds. For example 0xC3 becomes -61. |
| Text.GlyphSlot | demo/ChipmunkDebugDraw.c:488 | The corrected lookup slot is the byte itself, so it is always in `[0, 256)`. It equals the signed reading modulo 256, and for ASCII it equals the signed reading exactly. |
| CString.Strlen | demo/ChipmunkDebugDraw.c:523 | The text length is the position of the first NUL, or the whole buffer when there is none. No byte before it is NUL. |
| Text.Layout | demo/ChipmunkDebugDraw.c:523-530 | Laying out text draws exactly one glyph per byte that is not a newline. |
| Text.LayoutBounds | demo/ChipmunkDebugDraw.c:524-529 | No glyph is drawn above the starting line, and every glyph's slot is a valid index of the glyph table. |
| Text.LayoutAppend | demo/ChipmunkDebugDraw.c:523-530 | Drawing `a + b` draws `a`, then draws `b` from the pen position `a` left. |
| Text.NewlineRestartsLine | demo/ChipmunkDebugDraw.c:524-526 | After a newline, the text is laid out from the start column one line height below the line before it, wherever the pen had got to on that line. |
| Text.LineKeepsHeight | demo/ChipmunkDebugDraw.c:527-529 | Text without a newline keeps every glyph, and the pen, on the starting line. |
| Text.DrawText | demo/ChipmunkDebugDraw.c:517-531 | The drawing loop produces exactly the reference layout of the bytes before the NUL, and ends at the reference pen position. The glyph count is the length minus the number of newlines. |
| MessageBuffer.Initial | demo/ChipmunkDemo.c:256-257 | At program start the buffer is 8192 zero bytes, the cursor is NULL, and the message string is NULL. |
| MessageBuffer.WouldWrite | demo/ChipmunkDemo.c:271 | `vsnprintf` returns the full output length in bytes. It returns a negative value exactly on an encoding error or on an output longer than `INT_MAX`. |
| MessageBuffer.ToSize | demo/ChipmunkDemo.c:271 | Storing `vsnprintf`'s `int` result in a `size_t` keeps it modulo 2^64 in `[0, 2^64)`, so a negative result becomes a huge size. |
| MessageBuffer.Vsnprintf | demo/ChipmunkDemo.c:270-271 | At most `size - 1` bytes of the output land at the cursor, followed by a NUL. Nothing before the cursor or past the window changes. |
| MessageBuffer.PrintStringAsWritten | demo/ChipmunkDemo.c:259-279 | As written: with a NULL cursor the call is a no-op. Otherwise the message points at the buffer. The cursor advances by `n` when `0 < n < remaining` and becomes NULL when `n == 0`, `n >= remaining`, or on an error. The cursor stays strictly inside the 8192-byte buffer. |
| MessageBuffer.PrintString | demo/ChipmunkDemo.c:259-279 | Corrected: with a NULL cursor the call is a no-op. Printing succeeds exactly when the output exists and fits the remaining room. On success the cursor advances by the output length, the output sits at the old cursor, and earlier text is kept. |
| MessageBuffer.EmptyPrintLatchesCursor | demo/ChipmunkDemo.c:271-277 | As written, printing "" latches the cursor to NULL, so a following "x" is lost. The corrected version keeps the cursor and prints the "x". |
| MessageBuffer.AsWrittenAgreesExceptOnEmptyOutput | demo/ChipmunkDemo.c:271-277 | The written and the corrected print behave identically on every output except the empty string. |
| MessageBuffer.Rewind | demo/ChipmunkDemo.c:285-286 | The tick's rewind leaves a live cursor at the start of the buffer over an empty string. |
| MessageBuffer.NullCursorLatches | demo/ChipmunkDemo.c:262-264 | Once the cursor is NULL, every later corrected print is a no-op. `PrintAllAsWritten`'s contract states the same for the as-written prints a tick performs. |
| MessageBuffer.PrintStringAppends | demo/ChipmunkDemo.c:270-273 | One successful print appends its text at the cursor. |
| MessageBuffer.PrintAllAppends | demo/ChipmunkDemo.c:259-279 | While the cursor survives a series of prints, none of them failed. The buffer up to the cursor holds the earlier contents followed by every printed text, in order. |
| MessageBuffer.PrintAllAsWritten | demo/ChipmunkDemo.c:259-279 | A series of as-written prints from a NULL cursor changes nothing. From a live cursor, a non-empty series leaves the message string pointing at the buffer. |
| MessageBuffer.SurvivingRunAgrees | demo/ChipmunkDemo.c:271-277 | If the cursor survives a series of as-written prints, the buffer is exactly what the corrected prints leave. |
| MessageBuffer.RewoundBufferHoldsTickOutput | demo/ChipmunkDemo.c:284-286 | After a rewind and a series of prints with no overflow, the message is exactly the concatenation of the tick's output. |
| Harness.RunDemo | demo/ChipmunkDemo.c:408-431 | Starting demo `index` resets ticks, time, accumulator and the three maxima to 0, sets the last time to the clock and sets the message to "". It keeps the pause, step and right-button flags, the print cursor and the print buffer's bytes. |
| Harness.Start | demo/ChipmunkDemo.c:54-76 | The program starts on demo 0, unpaused, with a fresh run. Its print cursor is NULL, so every print does nothing until the first tick that runs. |
| Harness.KeyIndex | demo/ChipmunkDemo.c:436 | `key - 'a'` computed on `unsigned int` and stored in an `int` always lands in the `int` range. It equals the true difference whenever that fits, which covers every key below 2^31. |
| Harness.Keyboard | demo/ChipmunkDemo.c:433-448 | Key `'a'+i` (for `i` below the demo count) switches to demo `i` with a fresh run. Space restarts the current demo with a fresh run. Both keep the pause, step and right-button flags, the print cursor and the print buffer's bytes; only the message string is reset. '`' toggles pause, '1' sets step, and every other key changes nothing modelled. The demo index only changes through a demo key and always stays in range. |
| Harness.PauseTwiceRestores | demo/ChipmunkDemo.c:444-445 | Pressing the pause key twice restores the harness. |
| Harness.Tick | demo/ChipmunkDemo.c:281-302 | A tick does nothing unless the demo is running or a step is pending. When it runs, it rewinds the message buffer and passes the demo's prints through the as-written print. It counts exactly one tick, adds `dt` to the demo time, and clears step and right-button-down. Nothing else changes. |
| Harness.TickMessageIsTickOutput | demo/ChipmunkDemo.c:284-292 | After a tick that ran, the message holds exactly what the demo printed during that tick, unless a print made the cursor NULL. |
| Harness.SingleStepWhilePaused | demo/ChipmunkDemo.c:284-296 | While paused, the step key lets exactly one tick through: the harness runs after the key, counts one tick, and does not run again. |
| Harness.ClampDt | demo/ChipmunkDemo.c:308-309 | The frame time fed to the accumulator never exceeds 0.2. It is the wall-clock delta unless that delta is larger. |
| Harness.Step | demo/ChipmunkDemo.c:313-315 | One loop pass ticks with exactly the demo's timestep and then takes one timestep off the accumulator. A pass that ticks clears the step and right-button flags and leaves the rewound buffer holding that tick's as-written prints. A pass that does not tick leaves the flags and the print buffer alone. |
| Harness.Drain | demo/ChipmunkDemo.c:313-315 | The loop ends with the accumulator at most one timestep, and positive if any step was taken. It took exactly `steps` timesteps off the accumulator, and it steps at all exactly when the accumulator exceeded one timestep. Once a tick has run, the step and right-button flags are clear; if none ran, the flags and the print buffer are as they were. |
| Harness.Update | demo/ChipmunkDemo.c:304-318 | Update adds the clamped frame time to the accumulator and leaves it at most one timestep (positive if it stepped). When running, ticks grow by the number of steps and time by steps × timestep. When paused, it ticks once if a single step is pending and the accumulator holds more than one timestep, and otherwise not at all. After a tick the step and right-button flags are clear. If no tick ran, the flags and the print buffer, cursor included, are unchanged. |
| Harness.Measure | demo/ChipmunkDemo.c:215-222 | The arbiter count is the number of arbiters and the points are the sum of their contact counts. The constraint figure is (constraints + points) × iterations. |
| Harness.RecordMaxima | demo/ChipmunkDemo.c:224-226 | Each maximum never decreases, is at least the current figure, and equals either its old value or the current figure. |
| Harness.DrawInfo | demo/ChipmunkDemo.c:213-226 | Drawing the info measures the frame and folds it into the maxima. Nothing else in the harness changes. |
| Harness.MaximaSinceReset | demo/ChipmunkDemo.c:224-226 | After the frames drawn since a reset, each maximum is the largest figure seen (or 0 if none was positive). |
| Harness.Reversed | demo/ChipmunkDemo.c:348-350 | Reversal keeps the length and puts vertex `i` at position `count - i - 1`. |
| Harness.ReverseVertexes | demo/ChipmunkDemo.c:345-350 | The copy loop of the polygon case produces exactly the reversed vertex list. |
| Harness.ReversedIsInvolution | demo/ChipmunkDemo.c:348-350 | Reversing twice gives the vertex list back, so the index map is a bijection. |
| Harness.ReversedIsPermutation | demo/ChipmunkDemo.c:348-350 | Reversal neither adds nor drops a vertex: it is a permutation. |
| Harness.ReversedRingRetracesEdges | demo/ChipmunkDemo.c:344-352 | The shadow ring of the reversed polygon walks the original outline the other way. Its edge `k` is original edge `(n - k) mod n` with the ends swapped, a bijection on edges. |
| Harness.ShadowOutline | demo/ChipmunkDemo.c:320-356 | Only shapes on dynamic bodies cast shadows. A circle casts the fixed eight-point outline, a segment casts none, and a polygon casts its vertexes in reverse order. |

## Left out

- The GLSL shader sources (demo/ChipmunkDebugDraw.c:54-285). They are floating-point GPU code.
- The Photon renderer, textures, uniforms and blend modes. These are foreign code; only the batch offset and the index copy are modelled. Photon's sources are not part of this model. The model assumes `PhotonRenderBuffersCopyIndexes` adds the batch offset, as `PhotonIndexesCopy` does.
- Float vertex positions, texture coordinates, radii and colours. Where a property needs geometry, corners are written in the primitive's local frame with integer coordinates.
- The matrix setup of `ChipmunkDebugDrawBegin` and `ShadowsBegin`, and the commented-out polygon extrusion (demo/ChipmunkDebugDraw.c:409-471).
- The window, input and GL setup, `Reshape`, `MouseToSpace`, and the busy-wait renderer sync in `ChipmunkDebugDrawBegin` (demo/ChipmunkDebugDraw.c:619-621), which `Display` calls.
- Everything that calls the physics engine: the mouse body and joint, `Click` point queries, `ChipmunkDemoFreeSpaceChildren`, `TimeTrial`, `ColorForShape`. The demos' own init, update, draw and destroy callbacks are also left out. A demo's update is represented only by what it prints.
- The right mouse button (demo/ChipmunkDemo.c:527-528) sets `ChipmunkDemoRightDown`. The model only keeps the flag that `Tick` clears.
- The kinetic-energy sum and the `sprintf` formatting of `DrawInfo`, and the camera keys and GL-smoothing keys of `Keyboard`. These are floating point or GL state.
- The clock, `glfwGetTime`, is a parameter.
- DebugDraw.DrawSegment: the corner layout is the segment from `(0,0)` to `(length,0)` with radius 1. Other orientations and radii are float geometry and are not modelled.
- DebugDraw.SegmentCorners: `cpvnormalize` is not part of this model. For a zero-length segment it is taken to return the zero vector, as Chipmunk's definition does, so the corners collapse onto `a`. The strip properties (`SegmentStripTiles`) are stated only for positive lengths, because the collapsed triangles are degenerate.
- DebugDraw.DrawShadow: the transform `LightMatrixInv * transform` is an abstract function. The penetration and opacity constants are float attributes and are not modelled.
- Harness.ShadowOutline: the circle outline is not scaled by the radius or moved by the body transform, because that is float geometry. Shape kinds other than circle, segment and polygon are not modelled.
- Harness.Tick: `ChipmunkDemoTicks` is an `int` in the program. Here it is unbounded, so overflow after 2^31 ticks is not modelled.
- Harness.Drain: every demo's timestep is assumed positive (`Harness.Valid`). The program never checks this. With a timestep of zero or less and a positive accumulator, the loop at demo/ChipmunkDemo.c:311-313 never ends, and the model does not describe that case.
- DebugDraw.SegmentStripTiles: the triangles' interiors are not proved disjoint. The contract proves only that the strip is connected, proper, and that its unsigned areas add up to the rectangle's area.
- Harness.Update: `double` rounding is not modelled; times and the accumulator are reals.
- Harness.Measure: the `int` sums and products are unbounded here, so overflow of the point and constraint figures is not modelled.
- MessageBuffer.Vsnprintf: on an encoding error the C library leaves the window's contents unspecified. They are modelled as unchanged.
- Text.Layout: each byte selects the glyph slot of its `unsigned char` reading. As written, a byte from 0x80 up reaches `glyph_indexes` at a negative index, which is undefined behaviour with no result to model (see Findings).
- Text.DrawText: like `Text.Layout`, the loop reads each byte as `unsigned char`; the as-written out-of-bounds read for bytes from 0x80 up is not modelled. The per-glyph advance is a parameter. It is `sdf_spacing[i*8 + 7] * TextScale / scale_factor` for glyph `i` (demo/ChipmunkDebugDraw.c:500, 513), and the font header that holds that table is not part of this model.

## Findings

| source | as written | input that shows it | evidently intended | confidence | as-written member | corrected member |
|---|---|---|---|---|---|---|
| demo/ChipmunkDemo.c:270-277 | `would_write` is a `size_t`, so `would_write > 0` only rejects zero. An empty formatted string therefore latches the cursor to NULL like an overflow. | `ChipmunkDemoPrintString("")` followed by `ChipmunkDemoPrintString("x")` in one tick: the "x" is never printed. | The comment names only an encoding error or an overflow as reasons to stop. An empty output should leave the cursor where it is. | not executed | MessageBuffer.PrintStringAsWritten, MessageBuffer.EmptyPrintLatchesCursor | MessageBuffer.PrintString |
| demo/ChipmunkDebugDraw.c:528 | `PushChar(str[i], ...)` passes a plain `char`, which is signed on x86 and x86-64. `glyph_indexes[character]` is then read at a negative index for bytes from 0x80 up. | The text "é" in UTF-8 starts with byte 0xC3, which indexes `glyph_indexes[-61]`. | The byte should be read as `unsigned char`, selecting a slot in `[0, 256)`. | not executed | Text.CharArgumentAsWritten, Text.SignedCharIndexesOutsideTable | Text.GlyphSlot |

=== FILE: cstring.dfy ===
/** Bytes and NUL-terminated strings, shared by the text drawer and the
    message buffer: both work on C `char` buffers, and lengths are counted
    in bytes, as `strlen` and `vsnprintf` count them.
 */
module CString {

  /** A byte of a C string, read as `unsigned char`. */
  type Byte = b: int | 0 <= b < 256

  const Nul: Byte := 0

  /** `strlen`: the length of the C string at the start of `s`, up to the
      first NUL, or all of `s` when it holds none. */
  function Strlen(s: seq<Byte>): (n: nat)
    ensures n <= |s|
    ensures forall i :: 0 <= i < n ==> s[i] != Nul
    ensures n < |s| ==> s[n] == Nul
  {
    if |s| == 0 || s[0] == Nul then 0 else 1 + Strlen(s[1..])
  }
}

=== FILE: debug_draw.dfy ===
/** Primitive topology of the debug-draw layer: how many vertexes and
    triangles each draw routine reserves, and which indexes it writes.

    Vertex positions, texture coordinates and radii are floats in the
    program. Where a property needs geometry (the winding of a quad, the
    tiling of a segment's strip) the corners are written in the primitive's
    own local frame with integer coordinates: `(-r, +r)` becomes `(-1, 1)`.
 */
module DebugDraw {
  import opened Photon

  /** Index table of a quad split along the diagonal 0-2, used by circles,
      shadow quads and the full-screen shadow-apply pass. */
  const QuadIndexes: seq<int> := [0, 1, 2, 2, 3, 0]

  /** Index table of a glyph quad: the same diagonal, triangles listed as
      (0, 1, 2) and (0, 2, 3). */
  const GlyphQuadIndexes: seq<int> := [0, 1, 2, 0, 2, 3]

  /** Index table of a segment: a strip of six triangles over eight vertexes. */
  const SegmentIndexes: seq<int> := [0, 1, 2, 3, 1, 2, 3, 4, 2, 3, 4, 5, 6, 4, 5, 6, 7, 5]

  /** Circle vertexes sit at `p + (-r2, -r2)`, `(-r2, r2)`, `(r2, r2)`, `(r2, -r2)`. */
  const CircleCorners: seq<Corner> := [Corner(-1, -1), Corner(-1, 1), Corner(1, 1), Corner(1, -1)]

  /** Glyph vertexes sit at `(xmin, ymin)`, `(xmin, ymax)`, `(xmax, ymax)`, `(xmax, ymin)`. */
  const GlyphCorners: seq<Corner> := [Corner(0, 0), Corner(0, 1), Corner(1, 1), Corner(1, 0)]

  /** The shadow-apply pass covers clip space: `(-1,-1)`, `(1,-1)`, `(1,1)`, `(-1,1)`. */
  const ApplyCorners: seq<Corner> := [Corner(-1, -1), Corner(1, -1), Corner(1, 1), Corner(-1, 1)]

  /** Each shadow quad's four vertexes carry the corner tags `(0,0)`, `(0,1)`, `(1,1)`, `(1,0)`. */
  const ShadowCorners: seq<Corner> := [Corner(0, 0), Corner(0, 1), Corner(1, 1), Corner(1, 0)]

  /** Triangle `t` with the batch offset taken off again: local vertex numbers. */
  function Local(t: Triangle, offset: int): Triangle {
    Triangle(t.a - offset, t.b - offset, t.c - offset)
  }

  /** A four-vertex, two-triangle emission over a corner layout whose two
      triangles are both proper, are wound the same way, and between them
      touch all four corners. */
  predicate WellWoundQuad(e: Emission<Corner>, offset: int)
    requires Fills(e, offset) && e.declaredVertexes == 4 && e.declaredTriangles == 2
  {
    var t0 := Local(TriangleAt(e.indexes, 0), offset);
    var t1 := Local(TriangleAt(e.indexes, 1), offset);
    && Area2(e.vertexes, t0) * Area2(e.vertexes, t1) > 0
    && forall v :: 0 <= v < 4 ==> t0.Uses(v) || t1.Uses(v)
  }

  /** `DrawCircle`: one quad, 4 vertexes, 2 triangles. */
  function DrawCircle(offset: int): (e: Emission<Corner>)
    ensures e.declaredTriangles == 2 && e.declaredVertexes == 4
    ensures Fills(e, offset) && |e.indexes| == 6
    ensures WellWoundQuad(e, offset)
  {
    Emission(2, 4, CircleCorners, Shift(QuadIndexes, offset))
  }

  /** `PushChar`: one glyph quad, 4 vertexes, 2 triangles. */
  function DrawGlyphQuad(offset: int): (e: Emission<Corner>)
    ensures e.declaredTriangles == 2 && e.declaredVertexes == 4
    ensures Fills(e, offset) && |e.indexes| == 6
    ensures WellWoundQuad(e, offset)
  {
    Emission(2, 4, GlyphCorners, Shift(GlyphQuadIndexes, offset))
  }

  /** `ChipmunkDebugDrawApplyShadows`: one full-screen quad, 4 vertexes, 2 triangles. */
  function DrawApplyShadows(offset: int): (e: Emission<Corner>)
    ensures e.declaredTriangles == 2 && e.declaredVertexes == 4
    ensures Fills(e, offset) && |e.indexes| == 6
    ensures WellWoundQuad(e, offset)
  {
    Emission(2, 4, ApplyCorners, Shift(QuadIndexes, offset))
  }

  /** The eight vertexes of `DrawSegment` for a segment from `a = (0,0)` to
      `b = (length,0)` drawn with `r2 == 1`. For a proper segment the
      direction `t` is `(1,0)`, and the vertexes come in four pairs, one on
      each side of the segment (`+t.perp` first): the pair one radius beyond
      `b`, the pair at `b`, the pair at `a`, and the pair one radius beyond
      `a`. A segment of length zero has no direction: normalising the zero
      vector gives zero, so `t` is zero and all eight vertexes fall on `a`. */
  function SegmentCorners(length: nat): (cs: seq<Corner>)
    ensures |cs| == 8
    ensures length == 0 ==> forall k :: 0 <= k < 8 ==> cs[k] == Corner(0, 0)
    ensures length > 0 ==> forall k :: 0 <= k < 8 ==> cs[k].v == (if k % 2 == 0 then 1 else -1)
    ensures length > 0 ==> forall k :: 0 < k < 8 && k % 2 == 1 ==> cs[k].u == cs[k - 1].u
    ensures length > 0 ==> cs[2].u == length && cs[4].u == 0
    ensures length > 0 ==> cs[0].u == cs[2].u + 1 && cs[6].u == cs[4].u - 1
  {
    if length == 0 then seq(8, k => Corner(0, 0))
    else
      [ Corner(length + 1, 1), Corner(length + 1, -1), Corner(length, 1), Corner(length, -1),
        Corner(0, 1), Corner(0, -1), Corner(-1, 1), Corner(-1, -1) ]
  }

  function Abs(x: int): nat {
    if x < 0 then -x else x
  }

  /** `DrawSegment`: 8 vertexes and 6 triangles, every index inside the batch. */
  function DrawSegment(length: nat, offset: int): (e: Emission<Corner>)
    ensures e.declaredTriangles == 6 && e.declaredVertexes == 8
    ensures Fills(e, offset) && |e.indexes| == 18
  {
    Emission(6, 8, SegmentCorners(length), Shift(SegmentIndexes, offset))
  }

  /** Two triangles share an edge: two of the first one's corners are also
      corners of the second. */
  predicate SharesEdge(s: Triangle, t: Triangle) {
    (t.Uses(s.a) && t.Uses(s.b)) || (t.Uses(s.b) && t.Uses(s.c)) || (t.Uses(s.a) && t.Uses(s.c))
  }

  /** Triangles `k` and `k + 1` of an index buffer share an edge. */
  predicate StripStep(ix: seq<int>, k: nat)
    requires 3 * k + 6 <= |ix|
  {
    SharesEdge(TriangleAt(ix, k), TriangleAt(ix, k + 1))
  }

  /** The six triangles of `DrawSegment` form a strip (each shares an edge
      with the next and all six are proper), and their unsigned areas add up
      to the area of the rectangle `[-1, length+1] x [-1, 1]` the segment
      covers. */
  lemma SegmentStripTiles(length: nat, offset: int)
    requires length > 0
    ensures var e := DrawSegment(length, offset);
      && (forall k :: 0 <= k < 5 ==> StripStep(e.indexes, k))
      && (forall k :: 0 <= k < 6 ==> Area2(e.vertexes, Local(TriangleAt(e.indexes, k), offset)) != 0)
      && SegmentArea(e.vertexes, e.indexes, offset, 6) == 2 * ((length + 1) - (-1)) * (1 - (-1))
  {
    var e := DrawSegment(length, offset);
    var cs := e.vertexes;
    var ix := e.indexes;
    SegmentTriangles(length, offset);
    SegmentTriangleAreas(length, offset);
    forall k | 0 <= k < 6
      ensures Area2(cs, Local(TriangleAt(ix, k), offset)) != 0
    {
      assert k == 0 || k == 1 || k == 2 || k == 3 || k == 4 || k == 5;
    }
    forall k | 0 <= k < 5
      ensures StripStep(ix, k)
    {
      assert k == 0 || k == 1 || k == 2 || k == 3 || k == 4;
    }
    assert SegmentArea(cs, ix, offset, 1) == 2;
    assert SegmentArea(cs, ix, offset, 2) == 4;
    assert SegmentArea(cs, ix, offset, 3) == 4 + 2 * length;
    assert SegmentArea(cs, ix, offset, 4) == 4 + 4 * length;
    assert SegmentArea(cs, ix, offset, 5) == 6 + 4 * length;
  }

  /** The six triangles `DrawSegment` writes, in order. */
  lemma SegmentTriangles(length: nat, offset: int)
    ensures var ix := DrawSegment(length, offset).indexes;
      && TriangleAt(ix, 0) == Triangle(offset + 0, offset + 1, offset + 2)
      && TriangleAt(ix, 1) == Triangle(offset + 3, offset + 1, offset + 2)
      && TriangleAt(ix, 2) == Triangle(offset + 3, offset + 4, offset + 2)
      && TriangleAt(ix, 3) == Triangle(offset + 3, offset + 4, offset + 5)
      && TriangleAt(ix, 4) == Triangle(offset + 6, offset + 4, offset + 5)
      && TriangleAt(ix, 5) == Triangle(offset + 6, offset + 7, offset + 5)
  {
  }

  /** The doubled signed areas of those six triangles. */
  lemma SegmentTriangleAreas(length: nat, offset: int)
    requires length > 0
    ensures var e := DrawSegment(length, offset);
      && Area2(e.vertexes, Local(TriangleAt(e.indexes, 0), offset)) == -2
      && Area2(e.vertexes, Local(TriangleAt(e.indexes, 1), offset)) == 2
      && Area2(e.vertexes, Local(TriangleAt(e.indexes, 2), offset)) == -2 * length
      && Area2(e.vertexes, Local(TriangleAt(e.indexes, 3), offset)) == 2 * length
      && Area2(e.vertexes, Local(TriangleAt(e.indexes, 4), offset)) == -2
      && Area2(e.vertexes, Local(TriangleAt(e.indexes, 5), offset)) == 2
  {
    SegmentTriangles(length, offset);
  }

  /** Sum of the absolute doubled areas of the first `k` triangles. */
  function SegmentArea(cs: seq<Corner>, ix: seq<int>, offset: int, k: nat): int
    requires 3 * k <= |ix|
    requires Within(ix, offset, offset + |cs|)
  {
    if k == 0 then 0
    else SegmentArea(cs, ix, offset, k - 1) + Abs(Area2(cs, Local(TriangleAt(ix, k - 1), offset)))
  }

  /** Number of triangles `ChipmunkDebugDrawPolygon`'s loop writes for `count`
      vertexes: `count - 2`, or none when that is not positive. */
  function FanSize(count: int): nat {
    if count > 2 then count - 2 else 0
  }

  /** The index pattern of a triangle fan: triangle `k` is local `(0, k+1, k+2)`. */
  predicate IsFan(ix: seq<int>, count: int, offset: int) {
    && |ix| == 3 * FanSize(count)
    && forall k :: 0 <= k < FanSize(count) ==> TriangleAt(ix, k) == Triangle(offset, offset + k + 1, offset + k + 2)
  }

  /** `ChipmunkDebugDrawPolygon`: declares `count - 2` triangles over `count`
      vertexes, pushes the polygon's vertexes in order and writes a fan around
      vertex 0 whose indexes all lie in the batch. */
  method DrawPolygon<V>(verts: seq<V>, offset: int) returns (e: Emission<V>)
    ensures e.declaredVertexes == |verts| && e.declaredTriangles == |verts| - 2
    ensures e.vertexes == verts
    ensures IsFan(e.indexes, |verts|, offset)
    ensures Within(e.indexes, offset, offset + |verts|)
    ensures |verts| >= 2 ==> Fills(e, offset)
  {
    var count := |verts|;
    var vs: seq<V> := [];
    var i := 0;
    while i < count
      invariant 0 <= i <= count
      invariant vs == verts[..i]
    {
      vs := vs + [verts[i]];
      i := i + 1;
    }
    var ix: seq<int> := [];
    i := 0;
    while i < count - 2
      invariant 0 <= i && (count > 2 ==> i <= count - 2) && (count <= 2 ==> i == 0)
      invariant |ix| == 3 * i
      invariant forall k :: 0 <= k < i ==> TriangleAt(ix, k) == Triangle(offset, offset + k + 1, offset + k + 2)
      invariant Within(ix, offset, offset + count)
    {
      var tri := Shift([0, i + 1, i + 2], offset);
      assert forall k :: 0 <= k < i ==> TriangleAt(ix + tri, k) == TriangleAt(ix, k);
      ix := ix + tri;
      assert TriangleAt(ix, i) == Triangle(offset, offset + i + 1, offset + i + 2);
      i := i + 1;
    }
    assert vs == verts;
    e := Emission(count - 2, count, vs, ix);
  }

  /** Vertex `v` is a corner of one of the triangles of the fan over `count` vertexes. */
  ghost predicate Covered(ix: seq<int>, count: int, v: int)
    requires 3 * FanSize(count) <= |ix|
  {
    exists k :: 0 <= k < FanSize(count) && TriangleAt(ix, k).Uses(v)
  }

  /** A fan over a polygon of at least three vertexes uses every vertex,
      every triangle is proper and contains vertex 0, and consecutive
      triangles share an edge (the one from vertex 0 to their common vertex). */
  lemma {:induction false} FanCoversPolygon(ix: seq<int>, count: int, offset: int)
    requires count >= 3 && IsFan(ix, count, offset)
    ensures forall k :: 0 <= k < count - 2 ==> TriangleAt(ix, k).NonDegenerate() && TriangleAt(ix, k).Uses(offset)
    ensures forall k :: 0 <= k < count - 3 ==> StripStep(ix, k)
    ensures forall v :: offset <= v < offset + count ==> Covered(ix, count, v)
  {
    forall k | 0 <= k < count - 3
      ensures StripStep(ix, k)
    {
      assert TriangleAt(ix, k + 1) == Triangle(offset, offset + k + 2, offset + k + 3);
    }
    forall v | offset <= v < offset + count
      ensures Covered(ix, count, v)
    {
      var k := if v - offset <= 1 then 0 else v - offset - 2;
      assert TriangleAt(ix, k).Uses(v);
    }
  }

  /** `ChipmunkDebugDrawBB`'s box. */
  datatype BB = BB(l: real, b: real, r: real, t: real)

  datatype Point = Point(x: real, y: real)

  /** The polygon `ChipmunkDebugDrawBB` passes on: right-bottom, right-top,
      left-top, left-bottom. */
  function BBCorners(bb: BB): seq<Point> {
    [Point(bb.r, bb.b), Point(bb.r, bb.t), Point(bb.l, bb.t), Point(bb.l, bb.b)]
  }

  function PointCross(p: Point, q: Point, r: Point): real {
    (q.x - p.x) * (r.y - p.y) - (q.y - p.y) * (r.x - p.x)
  }

  /** `ChipmunkDebugDrawBB`: a 4-vertex polygon, hence 2 triangles
      `(0,1,2)` and `(0,2,3)`; on a box with `l < r` and `b < t` both
      triangles are counter-clockwise, so the box is covered along one
      diagonal with consistent winding. */
  method DrawBB(bb: BB, offset: int) returns (e: Emission<Point>)
    ensures e.declaredTriangles == 2 && e.declaredVertexes == 4 && Fills(e, offset)
    ensures e.vertexes == BBCorners(bb)
    ensures TriangleAt(e.indexes, 0) == Triangle(offset, offset + 1, offset + 2)
    ensures TriangleAt(e.indexes, 1) == Triangle(offset, offset + 2, offset + 3)
    ensures bb.l < bb.r && bb.b < bb.t ==>
      && PointCross(e.vertexes[0], e.vertexes[1], e.vertexes[2]) > 0.0
      && PointCross(e.vertexes[0], e.vertexes[2], e.vertexes[3]) > 0.0
  {
    e := DrawPolygon(BBCorners(bb), offset);
    if bb.l < bb.r && bb.b < bb.t {
      BoxCrossPositive(bb);
    }
  }

  lemma BoxCrossPositive(bb: BB)
    requires bb.l < bb.r && bb.b < bb.t
    ensures PointCross(Point(bb.r, bb.b), Point(bb.r, bb.t), Point(bb.l, bb.t)) > 0.0
    ensures PointCross(Point(bb.r, bb.b), Point(bb.l, bb.t), Point(bb.l, bb.b)) > 0.0
  {
    var w := bb.r - bb.l;
    var h := bb.t - bb.b;
    assert PointCross(Point(bb.r, bb.b), Point(bb.r, bb.t), Point(bb.l, bb.t)) == h * w;
    assert PointCross(Point(bb.r, bb.b), Point(bb.l, bb.t), Point(bb.l, bb.b)) == w * h;
  }

  // Shadows

  /** The vertex before `k` on a closed ring of `n` vertexes. */
  function Prev(k: nat, n: nat): nat
    requires k < n
  {
    if k == 0 then n - 1 else k - 1
  }

  /** The vertex after `k` on a closed ring of `n` vertexes. */
  function Next(k: nat, n: nat): nat
    requires k < n
  {
    if k == n - 1 then 0 else k + 1
  }

  /** A vertex of a shadow quad: its corner tag and the occluder edge `a -> b`
      it belongs to. */
  datatype ShadowVertex<Q> = ShadowVertex(corner: Corner, a: Q, b: Q)

  function QuadAt(ix: seq<int>, k: nat): seq<int>
    requires 6 * k + 6 <= |ix|
  {
    ix[6 * k .. 6 * k + 6]
  }

  function ShadowVertexAt<Q>(vs: seq<ShadowVertex<Q>>, k: nat, j: nat): ShadowVertex<Q>
    requires 4 * k + j < |vs|
  {
    vs[4 * k + j]
  }

  /** The four vertexes of the shadow quad of edge `a -> b`. */
  function ShadowQuad<Q>(a: Q, b: Q): seq<ShadowVertex<Q>> {
    [ ShadowVertex(ShadowCorners[0], a, b), ShadowVertex(ShadowCorners[1], a, b),
      ShadowVertex(ShadowCorners[2], a, b), ShadowVertex(ShadowCorners[3], a, b) ]
  }

  /** `ChipmunkDebugDrawShadow`: for `count` occluder vertexes, reserves
      `4 * count` vertexes and `2 * count` triangles; the quad of edge `k`
      uses only vertexes `offset + 4k .. offset + 4k + 3` in the pattern
      0,1,2,2,3,0, and its four vertexes all carry the edge from transformed
      vertex `k - 1` (the last vertex for `k == 0`) to transformed vertex `k`,
      so that each quad's edge starts where the previous one ended.
      `t` stands for the float transform `LightMatrixInv * transform`. The
      source reads `verts[count - 1]` before its loop, so `count` must be positive. */
  method DrawShadow<P, Q>(t: P -> Q, verts: seq<P>, offset: int) returns (e: Emission<ShadowVertex<Q>>)
    requires |verts| > 0
    ensures e.declaredTriangles == 2 * |verts| && e.declaredVertexes == 4 * |verts|
    ensures Fills(e, offset)
    ensures forall k :: 0 <= k < |verts| ==> QuadAt(e.indexes, k) == Shift(QuadIndexes, offset + 4 * k)
    ensures forall k :: 0 <= k < |verts| ==> Within(QuadAt(e.indexes, k), offset + 4 * k, offset + 4 * k + 4)
    ensures forall k, j :: 0 <= k < |verts| && 0 <= j < 4 ==>
      ShadowVertexAt(e.vertexes, k, j) == ShadowVertex(ShadowCorners[j], t(verts[Prev(k, |verts|)]), t(verts[k]))
    ensures forall k, j, l :: 0 <= k < |verts| && 0 <= j < 4 && 0 <= l < 4 ==>
      ShadowVertexAt(e.vertexes, k, j).b == ShadowVertexAt(e.vertexes, Next(k, |verts|), l).a
  {
    var n := |verts|;
    var vs: seq<ShadowVertex<Q>> := [];
    var ix: seq<int> := [];
    var batchOffset := offset;
    var a := t(verts[n - 1]);
    var i := 0;
    while i < n
      invariant 0 <= i <= n
      invariant batchOffset == offset + 4 * i
      invariant i < n ==> a == t(verts[Prev(i, n)])
      invariant QuadsPlaced(ix, i, offset)
      invariant EdgesPlaced(vs, i, t, verts)
    {
      var b := t(verts[i]);
      var quad := Shift(QuadIndexes, batchOffset);
      PlaceQuad(ix, i, offset);
      PlaceEdge(vs, i, t, verts, a);
      vs := vs + ShadowQuad(a, b);
      ix := ix + quad;
      a := b;
      batchOffset := batchOffset + 4;
      i := i + 1;
    }
    QuadsWithin(ix, n, offset);
    ShadowEdgesFormRing(vs, t, verts);
    e := Emission(2 * n, 4 * n, vs, ix);
  }

  /** The first `i` shadow quads are in place and inside their part of the batch. */
  predicate QuadsPlaced(ix: seq<int>, i: nat, offset: int) {
    && |ix| == 6 * i
    && Within(ix, offset, offset + 4 * i)
    && forall k :: 0 <= k < i ==> QuadAt(ix, k) == Shift(QuadIndexes, offset + 4 * k)
  }

  /** The first `i` shadow quads carry the edges of the occluder ring. */
  ghost predicate EdgesPlaced<P, Q>(vs: seq<ShadowVertex<Q>>, i: nat, t: P -> Q, verts: seq<P>)
    requires i <= |verts|
  {
    && |vs| == 4 * i
    && forall k, j :: 0 <= k < i && 0 <= j < 4 ==>
      ShadowVertexAt(vs, k, j) == ShadowVertex(ShadowCorners[j], t(verts[Prev(k, |verts|)]), t(verts[k]))
  }

  lemma PlaceQuad(ix: seq<int>, i: nat, offset: int)
    requires QuadsPlaced(ix, i, offset)
    ensures QuadsPlaced(ix + Shift(QuadIndexes, offset + 4 * i), i + 1, offset)
  {
    var quad := Shift(QuadIndexes, offset + 4 * i);
    AppendQuad(ix, quad, i);
    QuadWithin(offset + 4 * i);
    AppendWithin(ix, quad, offset, offset + 4 * i, offset + 4 * i + 4);
  }

  lemma PlaceEdge<P, Q>(vs: seq<ShadowVertex<Q>>, i: nat, t: P -> Q, verts: seq<P>, a: Q)
    requires i < |verts| && EdgesPlaced(vs, i, t, verts)
    requires a == t(verts[Prev(i, |verts|)])
    ensures EdgesPlaced(vs + ShadowQuad(a, t(verts[i])), i + 1, t, verts)
  {
    AppendShadowQuad(vs, a, t(verts[i]), i);
  }

  lemma QuadsWithin(ix: seq<int>, n: nat, offset: int)
    requires |ix| == 6 * n
    requires forall k :: 0 <= k < n ==> QuadAt(ix, k) == Shift(QuadIndexes, offset + 4 * k)
    ensures forall k :: 0 <= k < n ==> Within(QuadAt(ix, k), offset + 4 * k, offset + 4 * k + 4)
  {
    forall k | 0 <= k < n
      ensures Within(QuadAt(ix, k), offset + 4 * k, offset + 4 * k + 4)
    {
      QuadWithin(offset + 4 * k);
    }
  }

  /** A shifted quad table lies in the four vertexes after the offset. */
  lemma QuadWithin(offset: int)
    ensures Within(Shift(QuadIndexes, offset), offset, offset + 4)
  {
  }

  lemma AppendWithin(ix: seq<int>, more: seq<int>, lo: int, mid: int, hi: int)
    requires Within(ix, lo, mid) && Within(more, mid, hi) && lo <= mid <= hi
    ensures Within(ix + more, lo, hi)
  {
  }

  lemma AppendQuad(ix: seq<int>, quad: seq<int>, i: nat)
    requires |ix| == 6 * i && |quad| == 6
    ensures QuadAt(ix + quad, i) == quad
    ensures forall k :: 0 <= k < i ==> QuadAt(ix + quad, k) == QuadAt(ix, k)
  {
    assert (ix + quad)[6 * i ..] == quad;
  }

  lemma AppendShadowQuad<Q>(vs: seq<ShadowVertex<Q>>, a: Q, b: Q, i: nat)
    requires |vs| == 4 * i
    ensures forall j :: 0 <= j < 4 ==> ShadowVertexAt(vs + ShadowQuad(a, b), i, j) == ShadowVertex(ShadowCorners[j], a, b)
    ensures forall k, j :: 0 <= k < i && 0 <= j < 4 ==> ShadowVertexAt(vs + ShadowQuad(a, b), k, j) == ShadowVertexAt(vs, k, j)
  {
  }

  /** The shadow quads form one closed ring: every vertex of quad `k`
      carries as its far end the near end of every vertex of quad `Next(k)`,
      the hand-over `a = b` makes from one edge to the next. */
  lemma ShadowEdgesFormRing<P, Q>(vs: seq<ShadowVertex<Q>>, t: P -> Q, verts: seq<P>)
    requires 0 < |verts| && EdgesPlaced(vs, |verts|, t, verts)
    ensures forall k, j, l :: 0 <= k < |verts| && 0 <= j < 4 && 0 <= l < 4 ==>
      ShadowVertexAt(vs, k, j).b == ShadowVertexAt(vs, Next(k, |verts|), l).a
  {
    var n := |verts|;
    forall k, j, l | 0 <= k < n && 0 <= j < 4 && 0 <= l < 4
      ensures ShadowVertexAt(vs, k, j).b == ShadowVertexAt(vs, Next(k, n), l).a
    {
      assert Prev(Next(k, n), n) == k;
    }
  }
}

=== FILE: harness.dfy ===
/** The demo harness: the state `ChipmunkDemo.c` keeps in file-level globals,
    and the operations that change it — `RunDemo`, `Keyboard`, `Tick`,
    `Update`, the statistics kept by `DrawInfo`, and the vertex list
    `DrawShadows` hands to the shadow renderer.

    The physics space, the demos' init/update/draw/destroy callbacks, the
    mouse body and the window are outside the model. The clock is a
    parameter (`now`), a demo's update callback is represented only by what
    it prints, and double-precision time is modelled with reals.
 */
module Harness {
  import opened MessageBuffer
  import DebugDraw

  /** `Update` never advances the accumulator by more than this per frame. */
  const MaxFrameDt: real := 0.2

  /** `INT_MAX + 1`, the size of the `int` range `demo_count` lives in. */
  const IntRange: int := 0x8000_0000

  /** `UINT_MAX + 1`: `Keyboard` receives an `unsigned int`. */
  const UIntRange: int := 0x1_0000_0000

  const KeyA: int := 97         // 'a'
  const KeySpace: int := 32     // ' '
  const KeyPause: int := 96     // '`'
  const KeyStep: int := 49      // '1'

  /** One entry of the demo table; only the fixed timestep matters here. */
  datatype Demo = Demo(timestep: real)

  /** `max_arbiters`, `max_points`, `max_constraints`. */
  datatype Stats = Stats(maxArbiters: int, maxPoints: int, maxConstraints: int)

  const NoStats: Stats := Stats(0, 0, 0)

  /** The harness globals: the demo table and `demo_index`, `paused`,
      `step`, `ChipmunkDemoTicks`, `ChipmunkDemoTime`, `Accumulator`,
      `LastTime`, `ChipmunkDemoRightDown`, the `max_*` statistics, and the
      message buffer with its cursor. */
  datatype Harness = Harness(
    demos: seq<Demo>, index: int, paused: bool, step: bool,
    ticks: nat, time: real, accumulator: real, lastTime: real,
    rightDown: bool, stats: Stats, messages: Buffer)
  {
    /** The demo table is non-empty and fits `demo_count`, the current demo
        is one of its entries, every demo's timestep is positive (the update
        loop relies on it without checking), and the message buffer is sound. */
    predicate Valid() {
      && 0 < |demos| < IntRange
      && 0 <= index < |demos|
      && (forall i :: 0 <= i < |demos| ==> demos[i].timestep > 0.0)
      && messages.Valid()
    }

    /** `demos[demo_index].timestep`. */
    function Timestep(): (f: real)
      requires Valid()
      ensures f > 0.0
    {
      demos[index].timestep
    }
  }

  /** The counters `RunDemo` resets: ticks, time, accumulator, the three
      maxima, the message string (to ""), and `LastTime` set to the clock. */
  predicate FreshRun(h: Harness, now: real) {
    && h.ticks == 0 && h.time == 0.0 && h.accumulator == 0.0
    && h.lastTime == now
    && h.stats == NoStats
    && h.messages.message == EmptyMessage
  }

  /** `RunDemo`: switch to demo `index` and reset its counters. The pause and
      step flags, the right-button flag, the print cursor and the print
      buffer's bytes are left as they were; only the message string changes. */
  function RunDemo(h: Harness, index: int, now: real): (r: Harness)
    requires h.Valid() && 0 <= index < |h.demos|
    ensures r.Valid() && r.index == index && FreshRun(r, now)
    ensures r.demos == h.demos && r.paused == h.paused && r.step == h.step
    ensures r.rightDown == h.rightDown && r.messages == h.messages.(message := EmptyMessage)
  {
    h.(index := index, ticks := 0, time := 0.0, accumulator := 0.0, lastTime := now,
       stats := NoStats, messages := h.messages.(message := EmptyMessage))
  }

  /** Program start: the globals' static initial values (demo 0, not paused,
      NULL print cursor), then `RunDemo(window, demo_index)`. Printing is a
      no-op until the first tick that runs. */
  function Start(demos: seq<Demo>, now: real): (h: Harness)
    requires 0 < |demos| < IntRange
    requires forall i :: 0 <= i < |demos| ==> demos[i].timestep > 0.0
    ensures h.Valid() && h.index == 0 && FreshRun(h, now)
    ensures !h.paused && !h.step && h.messages.cursor.Null?
    ensures forall f :: PrintStringAsWritten(h.messages, f) == h.messages
  {
    var statics := Harness(demos, 0, false, false, 0, 0.0, 0.0, 0.0, false, NoStats, Initial());
    RunDemo(statics, 0, now)
  }

  /** `int index = key - 'a'` with an `unsigned int` key: the subtraction
      wraps modulo 2^32 and the conversion to `int` maps the upper half to
      negatives. Whenever the true difference fits in an `int` (every key
      below 2^31 + 'a', which covers all of Unicode), that is what it gives. */
  function KeyIndex(key: nat): (i: int)
    requires key < UIntRange
    ensures -IntRange <= i < IntRange
    ensures key - KeyA < IntRange ==> i == key - KeyA
  {
    var wrapped := (key - KeyA) % UIntRange;
    if wrapped >= IntRange then wrapped - UIntRange else wrapped
  }

  /** `Keyboard`: the key `'a' + i` (for `i` below the demo count) switches
      to demo `i`, space restarts the current demo, both with a fresh run;
      backquote toggles pause and `'1'` requests a single step. The
      remaining keys change only GL or camera state, which is not modelled.
      The demo index always stays in range. */
  function Keyboard(h: Harness, key: nat, now: real): (r: Harness)
    requires h.Valid() && key < UIntRange
    ensures r.Valid() && r.demos == h.demos
    ensures KeyA <= key < KeyA + |h.demos| ==>
      && r.index == key - KeyA && FreshRun(r, now) && r.paused == h.paused && r.step == h.step
      && r.rightDown == h.rightDown && r.messages == h.messages.(message := EmptyMessage)
    ensures key == KeySpace ==>
      && r.index == h.index && FreshRun(r, now) && r.paused == h.paused && r.step == h.step
      && r.rightDown == h.rightDown && r.messages == h.messages.(message := EmptyMessage)
    ensures key == KeyPause ==> r == h.(paused := !h.paused)
    ensures key == KeyStep ==> r == h.(step := true)
    ensures !(KeyA <= key < KeyA + |h.demos|) && key != KeySpace && key != KeyPause && key != KeyStep ==> r == h
    ensures r.index != h.index ==> KeyA <= key < KeyA + |h.demos|
  {
    var index := KeyIndex(key);
    if 0 <= index < |h.demos| then RunDemo(h, index, now)
    else if key == KeySpace then RunDemo(h, h.index, now)
    else if key == KeyPause then h.(paused := !h.paused)
    else if key == KeyStep then h.(step := true)
    else h
  }

  /** Pressing the pause key twice changes nothing. */
  lemma PauseTwiceRestores(h: Harness, now: real)
    requires h.Valid()
    ensures Keyboard(Keyboard(h, KeyPause, now), KeyPause, now) == h
  {
  }

  /** Whether `Tick` does anything: `!paused || step`. */
  predicate Runs(h: Harness) {
    !h.paused || h.step
  }

  /** `Tick(dt)`: when the harness runs, rewind the print buffer, let the
      demo step (its prints, `printed`, go through `ChipmunkDemoPrintString`
      as written), count one tick, add `dt` to the demo time and clear
      `step` and `ChipmunkDemoRightDown`; otherwise do nothing at all. */
  function Tick(h: Harness, dt: real, printed: seq<Formatted>): (r: Harness)
    requires h.Valid()
    ensures r.Valid()
    ensures !Runs(h) ==> r == h
    ensures Runs(h) ==>
      && r.ticks == h.ticks + 1 && r.time == h.time + dt
      && !r.step && !r.rightDown
      && r.messages == PrintAllAsWritten(Rewind(h.messages), printed)
      && r.demos == h.demos && r.index == h.index && r.paused == h.paused
      && r.accumulator == h.accumulator && r.lastTime == h.lastTime && r.stats == h.stats
  {
    if Runs(h) then
      h.(messages := PrintAllAsWritten(Rewind(h.messages), printed),
         ticks := h.ticks + 1, time := h.time + dt, step := false, rightDown := false)
    else h
  }

  /** After a tick that ran, the message buffer holds exactly what the demo
      printed during that tick, unless a print failed. */
  lemma TickMessageIsTickOutput(h: Harness, dt: real, printed: seq<Formatted>)
    requires h.Valid() && Runs(h)
    ensures var r := Tick(h, dt, printed);
      r.messages.cursor.At? ==> r.messages.bytes[..r.messages.cursor.offset] == Texts(printed)
  {
    SurvivingRunAgrees(Rewind(h.messages), printed);
    RewoundBufferHoldsTickOutput(h.messages, printed);
  }

  /** While paused, the step key lets exactly one tick through: the harness
      runs after the key, and no longer runs after that tick. */
  lemma SingleStepWhilePaused(h: Harness, now: real, dt: real, printed: seq<Formatted>)
    requires h.Valid() && h.paused
    ensures var s := Keyboard(h, KeyStep, now);
      && Runs(s) && s.ticks == h.ticks
      && var r := Tick(s, dt, printed);
         r.ticks == h.ticks + 1 && !Runs(r)
  {
  }

  /** The frame time `Update` feeds the accumulator: the wall-clock delta,
      capped at `MaxFrameDt`. */
  function ClampDt(dt: real): (c: real)
    ensures c <= MaxFrameDt
    ensures c == dt || (dt > MaxFrameDt && c == MaxFrameDt)
  {
    if dt > MaxFrameDt then MaxFrameDt else dt
  }

  /** One pass of `Update`'s loop: a tick of exactly one timestep, which
      is then taken off the accumulator. A pass that ticks rewinds the print
      buffer, prints the tick's output as written and clears the step and
      right-button flags; a pass that does not tick leaves them alone. */
  function Step(h: Harness, printed: nat -> seq<Formatted>): (r: Harness)
    requires h.Valid()
    ensures r.Valid() && r.Timestep() == h.Timestep()
    ensures r.demos == h.demos && r.index == h.index && r.paused == h.paused
    ensures r.stats == h.stats && r.lastTime == h.lastTime
    ensures r.accumulator == h.accumulator - h.Timestep()
    ensures Runs(h) ==> r.ticks == h.ticks + 1 && r.time == h.time + h.Timestep() && !r.step
    ensures !Runs(h) ==> r.ticks == h.ticks && r.time == h.time && r.step == h.step
    ensures Runs(h) ==> !r.rightDown && r.messages == PrintAllAsWritten(Rewind(h.messages), printed(h.ticks))
    ensures !Runs(h) ==> r.rightDown == h.rightDown && r.messages == h.messages
  {
    var t := Tick(h, h.Timestep(), printed(h.ticks));
    t.(accumulator := t.accumulator - h.Timestep())
  }

  /** How the tick counter, the demo time, the flags and the print buffer
      relate to the number of loop passes `steps` of `Update` when it started
      from `h`. Once some pass has ticked, the step and right-button flags
      are clear; while none has, the flags and the print buffer are as they
      were. */
  predicate Progress(h: Harness, r: Harness, steps: nat, f: real) {
    && (!h.paused ==> r.ticks == h.ticks + steps && r.time == h.time + Times(steps, f))
    && (h.paused && h.step && steps > 0 ==> r.ticks == h.ticks + 1 && r.time == h.time + f && !r.step)
    && (h.paused && !(h.step && steps > 0) ==> r.ticks == h.ticks && r.time == h.time && r.step == h.step)
    && (Runs(h) && steps > 0 ==> !r.rightDown && !r.step)
    && (!(Runs(h) && steps > 0) ==> r.rightDown == h.rightDown && r.messages == h.messages)
  }

  lemma StepProgress(h: Harness, r: Harness, steps: nat, printed: nat -> seq<Formatted>)
    requires r.Valid() && r.paused == h.paused && Progress(h, r, steps, r.Timestep())
    ensures Progress(h, Step(r, printed), steps + 1, r.Timestep())
  {
  }

  /** `Update`'s loop: step while the accumulator exceeds the timestep.
      Afterwards the accumulator is at most one timestep, and positive if any
      step was taken; exactly `steps` timesteps were taken off it. */
  method Drain(h: Harness, printed: nat -> seq<Formatted>) returns (r: Harness, steps: nat)
    requires h.Valid()
    ensures r.Valid() && r.lastTime == h.lastTime
    ensures r.accumulator == h.accumulator - Times(steps, h.Timestep())
    ensures r.accumulator <= h.Timestep()
    ensures steps > 0 ==> r.accumulator > 0.0
    ensures steps == 0 <==> h.accumulator <= h.Timestep()
    ensures Progress(h, r, steps, h.Timestep())
    ensures r.demos == h.demos && r.index == h.index && r.paused == h.paused && r.stats == h.stats
  {
    var f := h.Timestep();
    r := h;
    steps := 0;
    while r.accumulator > f
      invariant r.Valid() && r.Timestep() == f
      invariant r.demos == h.demos && r.index == h.index && r.paused == h.paused
      invariant r.stats == h.stats && r.lastTime == h.lastTime
      invariant r.accumulator == h.accumulator - Times(steps, f)
      invariant steps > 0 ==> r.accumulator > 0.0 && h.accumulator > f
      invariant Progress(h, r, steps, f)
      decreases (r.accumulator / f).Floor
    {
      DivStep(r.accumulator, f);
      StepProgress(h, r, steps, printed);
      r := Step(r, printed);
      steps := steps + 1;
    }
  }

  /** `Update`: add the clamped frame time to the accumulator, then tick with
      exactly the demo's fixed timestep while the accumulator exceeds it.
      `printed(n)` is what the demo prints during the tick that starts with
      `ChipmunkDemoTicks == n`.
      Afterwards the accumulator is at most one timestep, and positive if any
      step was taken; `steps` is the number of loop iterations. Running, every
      step is a tick of exactly one timestep; paused, only a pending single
      step ticks, once. Once a tick has run the step and right-button flags
      are clear; if none ran, the flags and the print buffer are untouched. */
  method Update(h: Harness, now: real, printed: nat -> seq<Formatted>) returns (r: Harness, steps: nat)
    requires h.Valid()
    ensures r.Valid() && r.lastTime == now
    ensures var f := h.Timestep();
      var dt := ClampDt(now - h.lastTime);
      && r.accumulator == h.accumulator + dt - steps as real * f
      && r.accumulator <= f
      && (steps > 0 ==> r.accumulator > 0.0)
      && (steps == 0 <==> h.accumulator + dt <= f)
    ensures !h.paused ==> r.ticks == h.ticks + steps && r.time == h.time + steps as real * h.Timestep()
    ensures h.paused && h.step && steps > 0 ==> r.ticks == h.ticks + 1 && r.time == h.time + h.Timestep() && !r.step
    ensures h.paused && !(h.step && steps > 0) ==> r.ticks == h.ticks && r.time == h.time && r.step == h.step
    ensures Runs(h) && steps > 0 ==> !r.rightDown && !r.step
    ensures !(Runs(h) && steps > 0) ==> r.rightDown == h.rightDown && r.messages == h.messages
    ensures r.demos == h.demos && r.index == h.index && r.paused == h.paused && r.stats == h.stats
  {
    var dt := now - h.lastTime;
    if dt > MaxFrameDt {
      dt := MaxFrameDt;
    }
    r, steps := Drain(h.(accumulator := h.accumulator + dt), printed);
    TimesIsProduct(steps, h.Timestep());
    r := r.(lastTime := now);
  }

  /** `n` timesteps of length `f`, added up one at a time as the loop does. */
  function Times(n: nat, f: real): real {
    if n == 0 then 0.0 else Times(n - 1, f) + f
  }

  lemma {:induction false} TimesIsProduct(n: nat, f: real)
    ensures Times(n, f) == n as real * f
  {
    if n > 0 {
      TimesIsProduct(n - 1, f);
    }
  }

  lemma SignOfProduct(d: real, f: real)
    requires f > 0.0
    ensures d > 0.0 ==> d * f > 0.0
    ensures d < 0.0 ==> d * f < 0.0
  {
  }

  /** Taking one timestep off the accumulator lowers `accumulator / f` by one. */
  lemma DivStep(a: real, f: real)
    requires f > 0.0
    ensures (a - f) / f == a / f - 1.0
    ensures ((a - f) / f).Floor == (a / f).Floor - 1
    ensures a > f ==> (a / f).Floor >= 1
  {
    var q, p := a / f, (a - f) / f;
    assert q * f == a && p * f == a - f;
    var d := p - q + 1.0;
    assert d * f == p * f - q * f + f == 0.0;
    SignOfProduct(d, f);
  }

  // Statistics shown by DrawInfo

  /** What `DrawInfo` reads from the space: the contact count of every
      arbiter, the number of constraints and the solver iterations. */
  datatype Frame = Frame(contactCounts: seq<int>, constraintCount: int, iterations: int)

  /** The frame's figures: arbiters, contact points, constraints x iterations. */
  datatype Info = Info(arbiters: int, points: int, constraints: int)

  function Sum(xs: seq<int>): int {
    if |xs| == 0 then 0 else Sum(xs[..|xs| - 1]) + xs[|xs| - 1]
  }

  /** `DrawInfo`'s counting: the arbiter count, the sum of the arbiters'
      contact counts, and `(constraints + points) * iterations`. */
  method Measure(frame: Frame) returns (info: Info)
    ensures info.arbiters == |frame.contactCounts|
    ensures info.points == Sum(frame.contactCounts)
    ensures info.constraints == (frame.constraintCount + Sum(frame.contactCounts)) * frame.iterations
  {
    var arbiters := |frame.contactCounts|;
    var points := 0;
    var i := 0;
    while i < arbiters
      invariant 0 <= i <= arbiters
      invariant points == Sum(frame.contactCounts[..i])
    {
      assert frame.contactCounts[..i + 1][..i] == frame.contactCounts[..i];
      points := points + frame.contactCounts[i];
      i := i + 1;
    }
    assert frame.contactCounts[..arbiters] == frame.contactCounts;
    info := Info(arbiters, points, (frame.constraintCount + points) * frame.iterations);
  }

  function Max(a: int, b: int): int {
    if a > b then a else b
  }

  /** `max_x = x > max_x ? x : max_x` for the three figures: each maximum
      never decreases, is at least the current figure, and is one of the two. */
  function RecordMaxima(s: Stats, info: Info): (r: Stats)
    ensures r.maxArbiters >= s.maxArbiters && r.maxArbiters >= info.arbiters
    ensures r.maxArbiters == s.maxArbiters || r.maxArbiters == info.arbiters
    ensures r.maxPoints >= s.maxPoints && r.maxPoints >= info.points
    ensures r.maxPoints == s.maxPoints || r.maxPoints == info.points
    ensures r.maxConstraints >= s.maxConstraints && r.maxConstraints >= info.constraints
    ensures r.maxConstraints == s.maxConstraints || r.maxConstraints == info.constraints
  {
    Stats(Max(info.arbiters, s.maxArbiters), Max(info.points, s.maxPoints),
          Max(info.constraints, s.maxConstraints))
  }

  /** `DrawInfo`: measure the frame and fold it into the maxima; nothing
      else in the harness changes. */
  method DrawInfo(h: Harness, frame: Frame) returns (r: Harness, info: Info)
    requires h.Valid()
    ensures r.Valid()
    ensures info.arbiters == |frame.contactCounts| && info.points == Sum(frame.contactCounts)
    ensures info.constraints == (frame.constraintCount + info.points) * frame.iterations
    ensures r == h.(stats := RecordMaxima(h.stats, info))
  {
    info := Measure(frame);
    r := h.(stats := RecordMaxima(h.stats, info));
  }

  /** The maxima after a run of frames. */
  function Replay(s: Stats, infos: seq<Info>): Stats
    decreases |infos|
  {
    if |infos| == 0 then s else Replay(RecordMaxima(s, infos[0]), infos[1..])
  }

  function ArbitersOf(i: Info): int { i.arbiters }
  function PointsOf(i: Info): int { i.points }
  function ConstraintsOf(i: Info): int { i.constraints }

  /** The largest value of `field` over `infos`, or 0 when that is larger:
      at least 0 and every value, and equal to 0 or to one of them. */
  function Peak(infos: seq<Info>, field: Info -> int): (p: int)
    ensures p >= 0 && forall j :: 0 <= j < |infos| ==> p >= field(infos[j])
    ensures p == 0 || exists j :: 0 <= j < |infos| && p == field(infos[j])
  {
    if |infos| == 0 then 0
    else Max(Peak(infos[..|infos| - 1], field), field(infos[|infos| - 1]))
  }

  lemma {:induction false} ReplayAppend(s: Stats, infos: seq<Info>, last: Info)
    ensures Replay(s, infos + [last]) == RecordMaxima(Replay(s, infos), last)
    decreases |infos|
  {
    if |infos| == 0 {
      assert infos + [last] == [last];
    } else {
      assert (infos + [last])[1..] == infos[1..] + [last];
      ReplayAppend(RecordMaxima(s, infos[0]), infos[1..], last);
    }
  }

  /** Between two resets, the maxima `DrawInfo` shows are exactly the
      largest figures seen since the reset (or 0 before any positive one). */
  lemma {:induction false} MaximaSinceReset(infos: seq<Info>)
    ensures Replay(NoStats, infos)
         == Stats(Peak(infos, ArbitersOf), Peak(infos, PointsOf), Peak(infos, ConstraintsOf))
    decreases |infos|
  {
    if |infos| > 0 {
      var front := infos[..|infos| - 1];
      var last := infos[|infos| - 1];
      assert infos == front + [last];
      MaximaSinceReset(front);
      ReplayAppend(NoStats, front, last);
    }
  }

  // Polygon shadows

  /** `vs` read backwards. */
  function Reversed<V>(vs: seq<V>): (r: seq<V>)
    ensures |r| == |vs|
    ensures forall i :: 0 <= i < |vs| ==> r[|vs| - 1 - i] == vs[i]
  {
    if |vs| == 0 then [] else Reversed(vs[1..]) + [vs[0]]
  }

  /** The loop in `DrawShadows`: `verts[count - i - 1] = vert i`. */
  method ReverseVertexes<V>(vs: seq<V>) returns (r: seq<V>)
    ensures r == Reversed(vs)
  {
    var n := |vs|;
    r := vs;
    var i := 0;
    while i < n
      invariant 0 <= i <= n && |r| == n
      invariant forall j :: 0 <= j < i ==> r[n - 1 - j] == vs[j]
    {
      r := r[n - i - 1 := vs[i]];
      i := i + 1;
    }
    var rev := Reversed(vs);
    forall p | 0 <= p < n
      ensures r[p] == rev[p]
    {
      assert r[n - 1 - (n - 1 - p)] == vs[n - 1 - p];
    }
  }

  /** Reading a vertex list backwards twice gives it back: the index map
      `i -> count - i - 1` is its own inverse. */
  lemma ReversedIsInvolution<V>(vs: seq<V>)
    ensures Reversed(Reversed(vs)) == vs
  {
    var r := Reversed(vs);
    var rr := Reversed(r);
    forall i | 0 <= i < |vs|
      ensures rr[i] == vs[i]
    {
      assert rr[|vs| - 1 - (|vs| - 1 - i)] == r[|vs| - 1 - i];
    }
  }

  /** Reversal never adds or drops a vertex. */
  lemma {:induction false} ReversedIsPermutation<V>(vs: seq<V>)
    ensures multiset(Reversed(vs)) == multiset(vs)
    decreases |vs|
  {
    if |vs| > 0 {
      ReversedIsPermutation(vs[1..]);
      assert vs == [vs[0]] + vs[1..];
      assert Reversed(vs) == Reversed(vs[1..]) + [vs[0]];
    }
  }

  /** The occluder edge `k` of a closed vertex ring, as `ChipmunkDebugDrawShadow`
      builds it: from vertex `k - 1` (the last for `k == 0`) to vertex `k`. */
  function EdgeEnds<V>(vs: seq<V>, k: nat): (V, V)
    requires k < |vs|
  {
    (vs[DebugDraw.Prev(k, |vs|)], vs[k])
  }

  /** The edge of the original ring that edge `k` of the reversed ring retraces. */
  function Mirror(k: nat, n: nat): nat
    requires k < n
  {
    if k == 0 then 0 else n - k
  }

  /** Reversing the vertex list makes the shadow renderer walk the same
      closed outline the other way round: edge `k` of the reversed ring is
      edge `Mirror(k)` of the original with its ends swapped, and `Mirror`
      is a bijection on edges. */
  lemma ReversedRingRetracesEdges<V>(vs: seq<V>)
    requires |vs| > 0
    ensures forall k :: 0 <= k < |vs| ==>
      EdgeEnds(Reversed(vs), k) == (EdgeEnds(vs, Mirror(k, |vs|)).1, EdgeEnds(vs, Mirror(k, |vs|)).0)
    ensures forall j, k :: 0 <= j < |vs| && 0 <= k < |vs| && Mirror(j, |vs|) == Mirror(k, |vs|) ==> j == k
  {
    var n := |vs|;
    var r := Reversed(vs);
    forall k | 0 <= k < n
      ensures EdgeEnds(r, k) == (EdgeEnds(vs, Mirror(k, n)).1, EdgeEnds(vs, Mirror(k, n)).0)
    {
      var m := Mirror(k, n);
      assert r[n - 1 - (n - 1 - k)] == vs[n - 1 - k];
      var p := DebugDraw.Prev(k, n);
      assert r[n - 1 - (n - 1 - p)] == vs[n - 1 - p];
    }
  }

  /** The kind of body a shape is attached to. */
  datatype BodyType = Dynamic | Kinematic | Static

  /** The shapes `DrawShadows` distinguishes. */
  datatype Shape = CircleShape(body: BodyType)
                 | SegmentShape(body: BodyType)
                 | PolyShape(body: BodyType, verts: seq<DebugDraw.Point>)

  /** The unit outline `DrawShadows` uses for circles, in the order it lists it. */
  const CircleOutline: seq<DebugDraw.Point> := [
    DebugDraw.Point(0.00, 1.00), DebugDraw.Point(0.71, -0.71), DebugDraw.Point(-1.00, 0.00),
    DebugDraw.Point(-0.71, -0.71), DebugDraw.Point(0.00, -1.00), DebugDraw.Point(-0.71, 0.71),
    DebugDraw.Point(1.00, 0.00), DebugDraw.Point(0.71, 0.71) ]

  datatype Outline = NoShadow | Cast(verts: seq<DebugDraw.Point>)

  /** `DrawShadows`: only shapes on dynamic bodies cast shadows; a circle
      casts its eight-point outline (scaled by its radius in the transform),
      a segment casts none, and a polygon casts its vertexes in reverse order. */
  method ShadowOutline(shape: Shape) returns (o: Outline)
    ensures shape.body != Dynamic || shape.SegmentShape? <==> o.NoShadow?
    ensures shape.body == Dynamic && shape.CircleShape? ==> o == Cast(CircleOutline) && |o.verts| == 8
    ensures shape.body == Dynamic && shape.PolyShape? ==>
      o.Cast? && |o.verts| == |shape.verts| &&
      forall i :: 0 <= i < |shape.verts| ==> o.verts[|shape.verts| - i - 1] == shape.verts[i]
  {
    if shape.body != Dynamic {
      return NoShadow;
    }
    match shape
    case CircleShape(_) =>
      o := Cast(CircleOutline);
    case SegmentShape(_) =>
      o := NoShadow;
    case PolyShape(_, verts) =>
      var reversed := ReverseVertexes(verts);
      o := Cast(reversed);
  }
}

=== FILE: message_buffer.dfy ===
/** The demo message buffer: `ChipmunkDemoPrintString` appends formatted text
    to the fixed 8 KiB `PrintStringBuffer` through `PrintStringCursor`, and
    `Tick` rewinds the cursor before each simulation step.

    `vsnprintf` is modelled by what it produces for one call: the formatted
    text (whose length is the "would write" count it returns) or an encoding
    error (a negative return). Formatting itself is not modelled.
 */
module MessageBuffer {
  import opened CString

  /** `sizeof(PrintStringBuffer)`. */
  const BufferSize: nat := 1024 * 8

  /** `INT_MAX`: `vsnprintf` returns an `int`, and reports an error when the
      output would be longer than that. */
  const IntMax: int := 0x7fff_ffff

  /** The byte `'x'`. */
  const LetterX: Byte := 120

  /** `SIZE_MAX + 1` on a 64-bit target: the modulus of the `size_t` conversion. */
  const SizeModulus: int := 0x1_0000_0000_0000_0000

  /** `PrintStringCursor`: NULL, or an offset into `PrintStringBuffer`. */
  datatype Cursor = Null | At(offset: nat)

  /** Where `ChipmunkDemoMessageString` points: NULL before the first demo
      starts, the literal "" after `RunDemo`, or the print buffer once
      something has been printed. */
  datatype Message = NoMessage | EmptyMessage | BufferMessage

  /** The result of one `vsnprintf` call. */
  datatype Formatted = Output(text: seq<Byte>) | EncodingError

  /** The print buffer's contents, its cursor and where the message string points. */
  datatype Buffer = Buffer(cursor: Cursor, bytes: seq<Byte>, message: Message)
  {
    /** The buffer has its fixed size, and a live cursor points strictly
        inside it at the terminating NUL of what has been printed. */
    predicate Valid() {
      && |bytes| == BufferSize
      && (cursor.At? ==> cursor.offset < BufferSize && bytes[cursor.offset] == Nul)
    }
  }

  /** The static state at program start: zero-filled buffer, NULL cursor,
      NULL message. Nothing can be printed until a tick rewinds the cursor. */
  function Initial(): (b: Buffer)
    ensures b.Valid() && b.cursor.Null? && b.message == NoMessage
    ensures forall i :: 0 <= i < BufferSize ==> b.bytes[i] == Nul
  {
    Buffer(Null, seq(BufferSize, i => Nul), NoMessage)
  }

  /** What `vsnprintf` returns: the length of the full output, or a negative
      value on an encoding error or an output longer than `INT_MAX`. */
  function WouldWrite(f: Formatted): (n: int)
    ensures n <= IntMax
    ensures n >= 0 <==> f.Output? && |f.text| <= IntMax
    ensures n >= 0 ==> n == |f.text|
  {
    match f
    case Output(t) => if |t| <= IntMax then |t| else -1
    case EncodingError => -1
  }

  /** The conversion of `vsnprintf`'s `int` result to `size_t`: negative
      values wrap to huge ones. */
  function ToSize(n: int): (s: nat)
    requires -SizeModulus < n < SizeModulus
    ensures s % SizeModulus == n % SizeModulus && s < SizeModulus
  {
    if n < 0 then n + SizeModulus else n
  }

  function Min(a: int, b: int): int {
    if a < b then a else b
  }

  /** The bytes `vsnprintf(buffer + at, size, ...)` leaves behind: at most
      `size - 1` bytes of the output followed by a NUL, nothing outside that
      window touched. On an encoding error the C library leaves the window's
      contents unspecified; they are modelled as unchanged. */
  function Vsnprintf(bytes: seq<Byte>, at: nat, size: nat, f: Formatted): (r: seq<Byte>)
    requires 0 < size && at + size <= |bytes|
    ensures |r| == |bytes|
    ensures r[..at] == bytes[..at]
    ensures r[at + size..] == bytes[at + size..]
    ensures f.Output? ==>
      var k := Min(|f.text|, size - 1);
      r[at..at + k] == f.text[..k] && r[at + k] == Nul
  {
    match f
    case EncodingError => bytes
    case Output(t) =>
      var k := Min(|t|, size - 1);
      bytes[..at] + t[..k] + [Nul] + bytes[at + k + 1..]
  }

  /** `ChipmunkDemoPrintString` as written. The `would_write > 0` test is on
      a `size_t`, so it only rejects zero: an empty output latches the cursor
      to NULL exactly like an overflow, and an error result (negative, hence
      huge once converted) is caught by `would_write < remaining` instead.
      A NULL cursor makes the call a no-op; otherwise the message points at
      the buffer, the cursor advances by `n` when `0 < n < remaining`, and
      becomes NULL when `n == 0`, `n >= remaining` or `n` reports an error. */
  function PrintStringAsWritten(b: Buffer, f: Formatted): (r: Buffer)
    requires b.Valid()
    ensures r.Valid()
    ensures b.cursor.Null? ==> r == b
    ensures b.cursor.At? ==> r.message == BufferMessage
    ensures b.cursor.At? ==>
      var n := WouldWrite(f);
      && (0 < n < BufferSize - b.cursor.offset ==> r.cursor == At(b.cursor.offset + n))
      && (n <= 0 || n >= BufferSize - b.cursor.offset ==> r.cursor == Null)
  {
    match b.cursor
    case Null => b
    case At(offset) =>
      var remaining := BufferSize - offset;
      var wouldWrite := ToSize(WouldWrite(f));
      var bytes := Vsnprintf(b.bytes, offset, remaining, f);
      if wouldWrite > 0 && wouldWrite < remaining then Buffer(At(offset + wouldWrite), bytes, BufferMessage)
      else Buffer(Null, bytes, BufferMessage)
  }

  /** `ChipmunkDemoPrintString` as its comment says it is meant to behave:
      only an encoding error or an overflow disables printing. On success the
      cursor advances by exactly the output's length, the output sits at the
      old cursor and everything printed before it is kept; the cursor stays
      strictly inside the buffer. */
  function PrintString(b: Buffer, f: Formatted): (r: Buffer)
    requires b.Valid()
    ensures r.Valid()
    ensures b.cursor.Null? ==> r == b
    ensures b.cursor.At? ==> r.message == BufferMessage
    ensures b.cursor.At? ==>
      (r.cursor.At? <==> f.Output? && |f.text| < BufferSize - b.cursor.offset)
    ensures b.cursor.At? && r.cursor.At? ==>
      var at := b.cursor.offset;
      && r.cursor.offset == at + |f.text|
      && r.bytes[..at] == b.bytes[..at]
      && r.bytes[at..r.cursor.offset] == f.text
  {
    match b.cursor
    case Null => b
    case At(offset) =>
      var remaining := BufferSize - offset;
      var wouldWrite := WouldWrite(f);
      var bytes := Vsnprintf(b.bytes, offset, remaining, f);
      if 0 <= wouldWrite < remaining then Buffer(At(offset + wouldWrite), bytes, BufferMessage)
      else Buffer(Null, bytes, BufferMessage)
  }

  /** Printing an empty string with a live cursor: as written it disables
      every later print of the tick (a following "x" is dropped and the
      buffer is left as the empty print left it), while the intended
      behaviour keeps the cursor where it was and prints the "x". */
  lemma EmptyPrintLatchesCursor(b: Buffer)
    requires b.Valid() && b.cursor.At? && b.cursor.offset + 1 < BufferSize
    ensures PrintStringAsWritten(b, Output([])).cursor == Null
    ensures var r := PrintStringAsWritten(b, Output([]));
      PrintStringAsWritten(r, Output([LetterX])) == r
    ensures PrintString(b, Output([])).cursor == b.cursor
    ensures var r := PrintString(PrintString(b, Output([])), Output([LetterX]));
      r.cursor == At(b.cursor.offset + 1) && r.bytes[b.cursor.offset] == LetterX
  {
    var r := PrintString(PrintString(b, Output([])), Output([LetterX]));
    assert r.bytes[b.cursor.offset..b.cursor.offset + 1] == [LetterX];
  }

  /** The two versions differ only on empty output. */
  lemma AsWrittenAgreesExceptOnEmptyOutput(b: Buffer, f: Formatted)
    requires b.Valid()
    requires f != Output([])
    ensures PrintStringAsWritten(b, f) == PrintString(b, f)
  {
  }

  /** `Tick`'s rewind: `PrintStringBuffer[0] = 0; PrintStringCursor = PrintStringBuffer`. */
  function Rewind(b: Buffer): (r: Buffer)
    requires |b.bytes| == BufferSize
    ensures r.Valid() && r.cursor == At(0) && r.message == b.message
  {
    Buffer(At(0), b.bytes[0 := Nul], b.message)
  }

  /** A sequence of prints, in order, as the code performs them. From a
      NULL cursor the run changes nothing; from a live one, the message
      string ends up pointing at the buffer. */
  function PrintAllAsWritten(b: Buffer, fs: seq<Formatted>): (r: Buffer)
    requires b.Valid()
    ensures r.Valid()
    ensures b.cursor.Null? ==> r == b
    ensures b.cursor.At? && fs != [] ==> r.message == BufferMessage
    decreases |fs|
  {
    if |fs| == 0 then b else PrintAllAsWritten(PrintStringAsWritten(b, fs[0]), fs[1..])
  }

  /** A run of as-written prints that keeps its cursor printed no empty
      string, so it leaves exactly what the intended prints leave. */
  lemma {:induction false} SurvivingRunAgrees(b: Buffer, fs: seq<Formatted>)
    requires b.Valid()
    ensures PrintAllAsWritten(b, fs).cursor.At? ==> PrintAllAsWritten(b, fs) == PrintAll(b, fs)
    decreases |fs|
  {
    if |fs| > 0 && b.cursor.At? && fs[0] != Output([]) {
      AsWrittenAgreesExceptOnEmptyOutput(b, fs[0]);
      SurvivingRunAgrees(PrintString(b, fs[0]), fs[1..]);
    }
  }

  /** A sequence of prints, in order, as intended. */
  function PrintAll(b: Buffer, fs: seq<Formatted>): (r: Buffer)
    requires b.Valid()
    ensures r.Valid()
    decreases |fs|
  {
    if |fs| == 0 then b else PrintAll(PrintString(b, fs[0]), fs[1..])
  }

  /** All the given outputs, concatenated. */
  function Texts(fs: seq<Formatted>): seq<Byte> {
    if |fs| == 0 then []
    else (match fs[0] case Output(t) => t case EncodingError => []) + Texts(fs[1..])
  }

  /** Once the cursor is NULL every further print is a no-op. */
  lemma {:induction false} NullCursorLatches(b: Buffer, fs: seq<Formatted>)
    requires b.Valid() && b.cursor.Null?
    ensures PrintAll(b, fs) == b
    decreases |fs|
  {
    if |fs| > 0 {
      NullCursorLatches(PrintString(b, fs[0]), fs[1..]);
    }
  }

  /** One successful print appends its text at the cursor. */
  lemma PrintStringAppends(b: Buffer, f: Formatted)
    requires b.Valid() && b.cursor.At?
    ensures var r := PrintString(b, f);
      r.cursor.At? ==>
        && f.Output?
        && r.cursor.offset == b.cursor.offset + |f.text|
        && r.bytes[..r.cursor.offset] == b.bytes[..b.cursor.offset] + f.text
  {
    var r := PrintString(b, f);
    if r.cursor.At? {
      var at := b.cursor.offset;
      assert r.bytes[..r.cursor.offset] == r.bytes[..at] + r.bytes[at..r.cursor.offset];
    }
  }

  /** While the cursor survives the prints `fs` started from `b`, none of
      them failed, and the buffer up to the cursor holds what was there
      before followed by every printed text in order. */
  predicate Appended(b: Buffer, fs: seq<Formatted>)
    requires b.Valid() && b.cursor.At?
  {
    var r := PrintAll(b, fs);
    r.cursor.At? ==>
      && (forall i :: 0 <= i < |fs| ==> fs[i].Output?)
      && r.cursor.offset == b.cursor.offset + |Texts(fs)|
      && r.bytes[..r.cursor.offset] == b.bytes[..b.cursor.offset] + Texts(fs)
  }

  /** Every run of prints from a live cursor appends, as long as the cursor survives. */
  lemma {:induction false} PrintAllAppends(b: Buffer, fs: seq<Formatted>)
    requires b.Valid() && b.cursor.At?
    ensures Appended(b, fs)
    decreases |fs|
  {
    if |fs| > 0 {
      var b1 := PrintString(b, fs[0]);
      if b1.cursor.Null? {
        NullCursorLatches(b1, fs[1..]);
      } else {
        PrintAllAppends(b1, fs[1..]);
        AppendedCons(b, fs);
      }
    }
  }

  /** The inductive step of `PrintAllAppends`: a first print that keeps the
      cursor, followed by a run that appends, appends. */
  lemma AppendedCons(b: Buffer, fs: seq<Formatted>)
    requires b.Valid() && b.cursor.At? && |fs| > 0
    requires PrintString(b, fs[0]).cursor.At?
    requires Appended(PrintString(b, fs[0]), fs[1..])
    ensures Appended(b, fs)
  {
    var b1 := PrintString(b, fs[0]);
    PrintStringAppends(b, fs[0]);
    assert PrintAll(b, fs) == PrintAll(b1, fs[1..]);
    AppendedStep(b, b1, PrintAll(b1, fs[1..]), fs);
  }

  /** The bookkeeping of `AppendedCons`, on the three buffers alone: `b1`
      holds `b`'s text followed by the first output, and `r`, if its cursor
      is live, holds `b1`'s text followed by the rest. */
  lemma AppendedStep(b: Buffer, b1: Buffer, r: Buffer, fs: seq<Formatted>)
    requires |fs| > 0 && fs[0].Output? && b.cursor.At? && b1.cursor.At?
    requires b.cursor.offset <= |b.bytes| && b1.cursor.offset <= |b1.bytes|
    requires b1.cursor.offset == b.cursor.offset + |fs[0].text|
    requires b1.bytes[..b1.cursor.offset] == b.bytes[..b.cursor.offset] + fs[0].text
    requires r.cursor.At? ==>
      && (forall i :: 0 <= i < |fs| - 1 ==> fs[1..][i].Output?)
      && r.cursor.offset <= |r.bytes|
      && r.cursor.offset == b1.cursor.offset + |Texts(fs[1..])|
      && r.bytes[..r.cursor.offset] == b1.bytes[..b1.cursor.offset] + Texts(fs[1..])
    ensures r.cursor.At? ==>
      && (forall i :: 0 <= i < |fs| ==> fs[i].Output?)
      && r.cursor.offset == b.cursor.offset + |Texts(fs)|
      && r.bytes[..r.cursor.offset] == b.bytes[..b.cursor.offset] + Texts(fs)
  {
    if r.cursor.At? {
      var before, text, rest := b.bytes[..b.cursor.offset], fs[0].text, Texts(fs[1..]);
      assert Texts(fs) == text + rest;
      assert (before + text) + rest == before + (text + rest);
      HeadAndTailPrinted(fs);
    }
  }

  /** A run of prints none of which failed: its first and all the rest. */
  lemma HeadAndTailPrinted(fs: seq<Formatted>)
    requires |fs| > 0 && fs[0].Output?
    requires forall i :: 0 <= i < |fs| - 1 ==> fs[1..][i].Output?
    ensures forall i :: 0 <= i < |fs| ==> fs[i].Output?
  {
    forall i | 0 < i < |fs|
      ensures fs[i].Output?
    {
      assert fs[1..][i - 1] == fs[i];
    }
  }

  /** After a tick's rewind, the message the demo shows is exactly the
      concatenation of what it printed during the tick, as long as nothing
      overflowed. */
  lemma RewoundBufferHoldsTickOutput(b: Buffer, fs: seq<Formatted>)
    requires |b.bytes| == BufferSize
    ensures var r := PrintAll(Rewind(b), fs);
      r.cursor.At? ==> r.bytes[..r.cursor.offset] == Texts(fs)
  {
    PrintAllAppends(Rewind(b), fs);
    assert Appended(Rewind(b), fs);
  }
}

=== FILE: photon.dfy ===
/** The slice of the Photon renderer that the debug-draw routines rely on.

    `PhotonRendererEnqueueTriangles(renderer, triangles, vertexes, state)` reserves
    room for a batch and hands back a `batchOffset`: the position of the batch's
    first vertex in the shared vertex buffer. Every index a routine writes is a
    local vertex number shifted by that offset. Vertex attributes are floats and
    are kept abstract here (a type parameter); the index buffer is exact.
 */
module Photon {

  /** One triangle of an index buffer: three vertex numbers. */
  datatype Triangle = Triangle(a: int, b: int, c: int)
  {
    /** The three corners are different vertices. */
    predicate NonDegenerate() {
      a != b && b != c && a != c
    }

    predicate Uses(v: int) {
      a == v || b == v || c == v
    }
  }

  /** A 2D integer point, used to describe the corner layout of a primitive
      in its own local frame (for instance `(-r, +r)` as `(-1, 1)`). */
  datatype Corner = Corner(u: int, v: int)

  /** What a draw routine hands the renderer: the triangle and vertex counts it
      declares to `PhotonRendererEnqueueTriangles`, the vertexes it pushes and
      the flat index buffer it writes. */
  datatype Emission<V> = Emission(declaredTriangles: int, declaredVertexes: int,
                                  vertexes: seq<V>, indexes: seq<int>)

  /** Every index lies in `[lo, hi)`. */
  predicate Within(ix: seq<int>, lo: int, hi: int) {
    forall i :: 0 <= i < |ix| ==> lo <= ix[i] < hi
  }

  /** An emission fills exactly what it reserved: as many vertexes as declared,
      three indexes per declared triangle, and every index points into its own
      batch `[offset, offset + declaredVertexes)`. */
  predicate Fills<V>(e: Emission<V>, offset: int) {
    && |e.vertexes| == e.declaredVertexes
    && |e.indexes| == 3 * e.declaredTriangles
    && Within(e.indexes, offset, offset + e.declaredVertexes)
  }

  /** A fixed index table copied into the index buffer with the batch offset
      added to every entry, as `PhotonIndexesCopy` does. */
  function Shift(table: seq<int>, offset: int): (r: seq<int>)
    ensures |r| == |table|
    ensures forall i :: 0 <= i < |table| ==> r[i] == table[i] + offset
  {
    seq(|table|, i requires 0 <= i < |table| => table[i] + offset)
  }

  /** Triangle `k` of a flat index buffer. */
  function TriangleAt(ix: seq<int>, k: nat): Triangle
    requires 3 * k + 3 <= |ix|
  {
    Triangle(ix[3 * k], ix[3 * k + 1], ix[3 * k + 2])
  }

  /** Twice the signed area of the triangle `p q r`; its sign is the winding. */
  function Cross(p: Corner, q: Corner, r: Corner): int {
    (q.u - p.u) * (r.v - p.v) - (q.v - p.v) * (r.u - p.u)
  }

  /** Twice the signed area of triangle `t` over the corner layout `cs`. */
  function Area2(cs: seq<Corner>, t: Triangle): int
    requires 0 <= t.a < |cs| && 0 <= t.b < |cs| && 0 <= t.c < |cs|
  {
    Cross(cs[t.a], cs[t.b], cs[t.c])
  }
}

=== FILE: text.dfy ===
/** Text drawing: the char-to-glyph table `ChipmunkDebugDrawInit` fills from
    the SDF font's spacing table, and the pen walk of `ChipmunkDebugDrawText`.

    Glyph metrics and the pen position are floats in the program; here the
    pen is a pair of reals and the advance `PushChar` returns for a character
    is a parameter (for glyph `i` it is `sdf_spacing[i*8 + 7] * TextScale /
    scale_factor`). The font header that defines `sdf_spacing` is not part
    of this model: the
    spacing table is a sequence of integers, eight per glyph, whose first
    entry is the glyph's character code.
 */
module Text {
  import opened CString

  const Newline: Byte := 10

  /** Number of entries of `glyph_indexes`: one per unsigned char value. */
  const TableSize: nat := 256

  const TextScale: real := 0.7
  const LineHeight: real := 18.0 * TextScale

  // The glyph table

  /** The character code of glyph `i`: `sdf_spacing[i*8]`. */
  function CodeOf(spacing: seq<int>, i: nat): int
    requires 8 * i < |spacing|
  {
    spacing[8 * i]
  }

  /** The font data `ChipmunkDebugDrawInit` relies on: eight entries per glyph
      and every glyph's code a valid index of `glyph_indexes`. */
  predicate SpacingWellFormed(spacing: seq<int>, numChars: nat) {
    && 8 * numChars <= |spacing|
    && forall i :: 0 <= i < numChars ==> 0 <= CodeOf(spacing, i) < TableSize
  }

  /** The value `glyph_indexes[c]` holds once glyphs `0 .. n-1` have been
      entered: the last glyph whose code is `c`, or the zero the static table
      starts with when no glyph has that code. */
  function LastGlyph(spacing: seq<int>, n: nat, c: int): (g: int)
    requires 8 * n <= |spacing|
    ensures (exists i :: 0 <= i < n && CodeOf(spacing, i) == c) ==>
      && 0 <= g < n
      && CodeOf(spacing, g) == c
      && forall j :: g < j < n ==> CodeOf(spacing, j) != c
    ensures (forall i :: 0 <= i < n ==> CodeOf(spacing, i) != c) ==> g == 0
  {
    if n == 0 then 0
    else if CodeOf(spacing, n - 1) == c then n - 1
    else LastGlyph(spacing, n - 1, c)
  }

  /** The glyph-table loop of `ChipmunkDebugDrawInit`: starting from the
      zero-initialised table, `glyph_indexes[sdf_spacing[i*8]] = i` for every
      glyph in order. Each entry ends as the last glyph with that code (zero
      for codes no glyph has), so every code the font has maps back to a
      glyph carrying that code. */
  method FillGlyphIndexes(spacing: seq<int>, numChars: nat) returns (table: seq<int>)
    requires SpacingWellFormed(spacing, numChars)
    ensures |table| == TableSize
    ensures forall c :: 0 <= c < TableSize ==> table[c] == LastGlyph(spacing, numChars, c)
    ensures forall i :: 0 <= i < numChars ==>
      var g := table[CodeOf(spacing, i)];
      0 <= g < numChars && CodeOf(spacing, g) == CodeOf(spacing, i)
  {
    table := seq(TableSize, c => 0);
    var i := 0;
    while i < numChars
      invariant 0 <= i <= numChars
      invariant |table| == TableSize
      invariant forall c :: 0 <= c < TableSize ==> table[c] == LastGlyph(spacing, i, c)
    {
      var charIndex := CodeOf(spacing, i);
      table := table[charIndex := i];
      i := i + 1;
    }
    forall i | 0 <= i < numChars
      ensures var g := table[CodeOf(spacing, i)];
        0 <= g < numChars && CodeOf(spacing, g) == CodeOf(spacing, i)
    {
      var c := CodeOf(spacing, i);
      assert table[c] == LastGlyph(spacing, numChars, c);
    }
  }

  // Characters

  /** The `int` that `PushChar(str[i], ...)` receives for byte `b` as the
      code is written: a plain `char` is signed on the x86 and x86-64 ABIs,
      so bytes from 0x80 up arrive negative. The value is the one `char`
      in `[-128, 128)` congruent to the byte modulo 256, equal to the byte
      for ASCII. */
  function CharArgumentAsWritten(b: Byte): (c: int)
    ensures -128 <= c < 128 && (c - b) % 256 == 0
    ensures b < 128 <==> c == b
  {
    if b >= 128 then b - 256 else b
  }

  /** Every byte from 0x80 up reaches `glyph_indexes[character]` with a
      negative index, outside the table; `0xC3` (the first byte of a UTF-8
      accented letter) becomes -61. */
  lemma SignedCharIndexesOutsideTable(b: Byte)
    requires b >= 128
    ensures CharArgumentAsWritten(b) < 0
    ensures CharArgumentAsWritten(0xC3) == -61
  {
  }

  /** The table slot a byte should select: the `char` converted back to
      `unsigned char`, which is the byte itself. It is always a valid index of
      `glyph_indexes`, names the same byte as the signed reading (they agree
      modulo 256), and equals it for ASCII. */
  function GlyphSlot(b: Byte): (slot: int)
    ensures slot == b && 0 <= slot < TableSize
    ensures (slot - CharArgumentAsWritten(b)) % 256 == 0
    ensures b < 128 ==> slot == CharArgumentAsWritten(b)
  {
    var signed := CharArgumentAsWritten(b);
    if signed < 0 then signed + 256 else signed
  }

  // Laying out text

  datatype Pen = Pen(x: real, y: real)

  /** One glyph quad `PushChar` enqueues: the glyph-table slot and the pen
      position it is drawn at. */
  datatype GlyphDraw = GlyphDraw(slot: int, x: real, y: real)

  function Newlines(s: seq<Byte>): (n: nat)
    ensures n <= |s|
  {
    if |s| == 0 then 0 else (if s[0] == Newline then 1 else 0) + Newlines(s[1..])
  }

  /** Where the pen goes after byte `c`: a newline returns it to column
      `x0` one line lower, any other byte advances it by its glyph's width. */
  function Move(c: Byte, pen: Pen, x0: real, advance: int -> real): Pen {
    if c == Newline then Pen(x0, pen.y - LineHeight) else Pen(pen.x + advance(GlyphSlot(c)), pen.y)
  }

  /** What byte `c` draws at `pen`: nothing for a newline, one glyph otherwise. */
  function Draw(c: Byte, pen: Pen): seq<GlyphDraw> {
    if c == Newline then [] else [GlyphDraw(GlyphSlot(c), pen.x, pen.y)]
  }

  /** The glyphs drawn for `s` starting at `pen`, with `x0` the column a
      newline returns to: a newline moves the pen to `x0` one line lower, any
      other byte draws a glyph at the pen and advances it. One glyph per
      non-newline byte. */
  function Layout(s: seq<Byte>, pen: Pen, x0: real, advance: int -> real): (gs: seq<GlyphDraw>)
    ensures |gs| == |s| - Newlines(s)
  {
    if |s| == 0 then [] else Draw(s[0], pen) + Layout(s[1..], Move(s[0], pen, x0, advance), x0, advance)
  }

  /** No glyph is drawn above the line the text starts on, and every glyph's
      slot is a valid index of `glyph_indexes`. */
  lemma {:induction false} LayoutBounds(s: seq<Byte>, pen: Pen, x0: real, advance: int -> real)
    ensures forall j :: 0 <= j < |Layout(s, pen, x0, advance)| ==>
      Layout(s, pen, x0, advance)[j].y <= pen.y && 0 <= Layout(s, pen, x0, advance)[j].slot < TableSize
    decreases |s|
  {
    if |s| > 0 {
      LayoutBounds(s[1..], Move(s[0], pen, x0, advance), x0, advance);
    }
  }

  /** Where the pen stands after `s`. */
  function PenAfter(s: seq<Byte>, pen: Pen, x0: real, advance: int -> real): Pen {
    if |s| == 0 then pen else PenAfter(s[1..], Move(s[0], pen, x0, advance), x0, advance)
  }

  /** Laying out `a + b` lays out `a`, then `b` from wherever `a` left the pen. */
  lemma {:induction false} LayoutAppend(a: seq<Byte>, b: seq<Byte>, pen: Pen, x0: real, advance: int -> real)
    ensures Layout(a + b, pen, x0, advance)
         == Layout(a, pen, x0, advance) + Layout(b, PenAfter(a, pen, x0, advance), x0, advance)
    ensures PenAfter(a + b, pen, x0, advance) == PenAfter(b, PenAfter(a, pen, x0, advance), x0, advance)
    decreases |a|
  {
    if |a| == 0 {
      assert a + b == b;
    } else {
      assert (a + b)[0] == a[0];
      assert (a + b)[1..] == a[1..] + b;
      var next := Move(a[0], pen, x0, advance);
      LayoutAppend(a[1..], b, next, x0, advance);
      var first, rest, tail := Draw(a[0], pen), Layout(a[1..], next, x0, advance), Layout(b, PenAfter(a, pen, x0, advance), x0, advance);
      assert first + (rest + tail) == (first + rest) + tail;
    }
  }

  /** The first `i` bytes of `text` have been drawn as `glyphs`, leaving
      the pen at `pen`: what remains to draw, from there, completes the
      layout of the whole text from `start`. */
  ghost predicate Walked(text: seq<Byte>, start: Pen, advance: int -> real, i: nat, glyphs: seq<GlyphDraw>, pen: Pen)
    requires i <= |text|
  {
    && Layout(text, start, start.x, advance) == glyphs + Layout(text[i..], pen, start.x, advance)
    && PenAfter(text, start, start.x, advance) == PenAfter(text[i..], pen, start.x, advance)
  }

  /** Drawing byte `i` advances the walk by one. */
  lemma WalkStep(text: seq<Byte>, start: Pen, advance: int -> real, i: nat, glyphs: seq<GlyphDraw>, pen: Pen)
    requires i < |text| && Walked(text, start, advance, i, glyphs, pen)
    ensures Walked(text, start, advance, i + 1, glyphs + Draw(text[i], pen), Move(text[i], pen, start.x, advance))
  {
    var next := Move(text[i], pen, start.x, advance);
    var tail := Layout(text[i + 1..], next, start.x, advance);
    assert text[i..][0] == text[i] && text[i..][1..] == text[i + 1..];
    assert Layout(text[i..], pen, start.x, advance) == Draw(text[i], pen) + tail;
    assert glyphs + (Draw(text[i], pen) + tail) == (glyphs + Draw(text[i], pen)) + tail;
  }

  /** A newline cuts the text in two: what follows it is laid out from
      column `x0`, one line below where the text before it ended, however
      far along that line the pen had got. */
  lemma NewlineRestartsLine(a: seq<Byte>, b: seq<Byte>, pen: Pen, x0: real, advance: int -> real)
    ensures Layout(a + [Newline] + b, pen, x0, advance)
         == Layout(a, pen, x0, advance)
          + Layout(b, Pen(x0, PenAfter(a, pen, x0, advance).y - LineHeight), x0, advance)
  {
    LayoutAppend(a, [Newline] + b, pen, x0, advance);
    assert a + [Newline] + b == a + ([Newline] + b);
    assert ([Newline] + b)[1..] == b;
  }

  /** Text without a newline stays on the pen's line and never moves the
      pen vertically. */
  lemma {:induction false} LineKeepsHeight(s: seq<Byte>, pen: Pen, x0: real, advance: int -> real)
    requires Newlines(s) == 0
    ensures forall j :: 0 <= j < |Layout(s, pen, x0, advance)| ==> Layout(s, pen, x0, advance)[j].y == pen.y
    ensures PenAfter(s, pen, x0, advance).y == pen.y
    decreases |s|
  {
    if |s| > 0 {
      LineKeepsHeight(s[1..], Move(s[0], pen, x0, advance), x0, advance);
    }
  }

  /** `ChipmunkDebugDrawText`: walks the bytes up to the terminating NUL,
      drawing one glyph per non-newline byte; a newline resets `x` to
      `pos.x` and lowers `y` by one line height. */
  method DrawText(pos: Pen, str: seq<Byte>, advance: int -> real) returns (glyphs: seq<GlyphDraw>, pen: Pen)
    ensures glyphs == Layout(str[..Strlen(str)], pos, pos.x, advance)
    ensures pen == PenAfter(str[..Strlen(str)], pos, pos.x, advance)
    ensures |glyphs| == Strlen(str) - Newlines(str[..Strlen(str)])
  {
    var x, y := pos.x, pos.y;
    glyphs := [];
    var len := Strlen(str);
    var text := str[..len];
    var i := 0;
    while i < len
      invariant 0 <= i <= len
      invariant Walked(text, pos, advance, i, glyphs, Pen(x, y))
    {
      assert text[i] == str[i];
      WalkStep(text, pos, advance, i, glyphs, Pen(x, y));
      ghost var drawn, moved := glyphs + Draw(str[i], Pen(x, y)), Move(str[i], Pen(x, y), pos.x, advance);
      if str[i] == Newline {
        assert drawn == glyphs + [] == glyphs;
        y := y - LineHeight;
        x := pos.x;
      } else {
        var slot := GlyphSlot(str[i]);
        glyphs := glyphs + [GlyphDraw(slot, x, y)];
        x := x + advance(slot);
      }
      assert glyphs == drawn && Pen(x, y) == moved;
      i := i + 1;
    }
    assert text[len..] == [];
    pen := Pen(x, y);
  }
}
